=== FILE: README.md ===
# data-forge: series merge and the data-frame codec

A Dafny model of two behaviours of the data-forge TypeScript library.

- **`Series.merge(other, combine)`** is a label-aligned inner join of two series. A series is its sequence of (label, value) pairs, where a value may be `undefined`.
  - The merged series walks the first series in order.
  - It keeps a label only when both series hold a defined value there.
  - That label then carries `combine(a, b)`.
  - `new Series(values)` labels the values 0 .. n-1.
  - `new Series({ index, values })` pairs labels and values by position.
- **`DataFrame.serialize()` / `DataFrame.deserialize(...)`** convert between a frame and its transport form.
  - A frame has ordered column names, an index (one label per row) and rows of cells.
  - The transport form is `{ columnOrder, columns: name → type tag, index: { type, values }, values: [record per row] }`.
  - Type tags are inferred from a column's first defined value. A column with no defined value is tagged "empty", a choice of this model.
  - Instants travel as ISO-8601 strings and come back as instants.
  - A frame without columns has a canonical empty form.
  - An absent input, or an empty one, deserializes to a frame of count 0.

The only source the model follows is the library's two test suites, `series.merge.test.ts` and `dataframe.serialize.test.ts`. The implementation of `Series` and `DataFrame` is not part of this model. Each test scenario is a lemma about the model, and each general promise the scenarios illustrate is a lemma over all inputs. The codec round trip is characterized exactly. A frame comes back from its transport form if and only if three things hold: its date columns and date index hold only instants and undefined, a non-empty index has a defined label, and the frame has columns or no rows.

Modules:

- `Wrappers`: `Option` and `Result`.
- `Seqs`: distinctness, subsequences and element sets.
- `Iso8601`: instants as UTC calendar fields. `toISOString` becomes `ToIso` and its parser `ParseIso`; the two are proved inverse in both directions.
- `Values`: cells, kinds, tag inference and errors.
- `SeriesMerge`: series and merge.
- `SeriesExamples`: the merge test scenarios.
- `Frames`: the frame and its constructor.
- `Codec`: `Serialize` and `Deserialize`.
- `CodecLaws`: the general codec properties and the round trip.
- `CodecExamples`: the codec test scenarios.

The instant `moment("2018/05/15", "YYYY/MM/DD")` of the tests is `CodecExamples.May15`, taken at UTC midnight. Its `toISOString()` is `ToIso(May15)`, which `CodecExamples.May15Iso` proves to be "2018-05-15T00:00:00.000Z".

## Model

| member | source | states |
|---|---|---|
| SeriesMerge.FromValues | src/test/series.merge.test.ts:11-12 | `new Series(values)` pairs value i with the default label i, for every i |
| SeriesMerge.Empty | src/test/series.merge.test.ts:64-65 | `new Series()` has no pairs |
| SeriesMerge.FromIndexed | src/test/series.merge.test.ts:46-53 | `new Series({index, values})` succeeds exactly when index and values have the same length; the labels are the index and value i sits at position i; a length mismatch is ShapeMismatch |
| SeriesMerge.ValueAtDistinct | src/test/series.merge.test.ts:46-53 | in a series with distinct labels, the value looked up at a label is the one paired with it |
| SeriesMerge.Merge | src/test/series.merge.test.ts:13 | `series1.merge(series2, combine)` keeps a label if and only if both series hold a defined value for it; the rest of its contract is the Merge lemmas below |
| SeriesMerge.MergeKeepsCommonDefined | src/test/series.merge.test.ts:22-60 | a label is in the merged series if and only if both series hold a defined value for it; undefined on either side drops the label |
| SeriesMerge.MergeCombines | src/test/series.merge.test.ts:13-19 | every merged pair carries `combine` applied to the first series' value and the second series' value at its label |
| SeriesMerge.MergeOrder | src/test/series.merge.test.ts:44-60 | the merged labels are distinct and form a subsequence of the first series' labels, so the first series' order is kept |
| SeriesMerge.MergeBounded | src/test/series.merge.test.ts:44-86 | every merged label is a label of both series (none is synthesized), and the result is no longer than either input |
| SeriesMerge.MergeWithEmpty | src/test/series.merge.test.ts:62-86 | merging with an empty series, as first or second argument, gives an empty series |
| SeriesMerge.MergeSameLabels | src/test/series.merge.test.ts:44-60 | swapping the arguments keeps the same set of merged labels; no test swaps them, this is the commutativity of the label set that the inner join implies |
| SeriesMerge.MergeFromLabels | src/test/series.merge.test.ts:22-60 | the merge walk emits a label exactly when it is not among the labels already walked and both the rest of the first series and the second series hold a defined value for it |
| SeriesMerge.MergeFromPairs | src/test/series.merge.test.ts:13-19 | every pair the merge walk emits combines the two defined values at its label |
| SeriesMerge.MergeFromDistinct | src/test/series.merge.test.ts:44-60 | the merge walk never emits a label twice |
| SeriesMerge.MergeFromOrder | src/test/series.merge.test.ts:44-60 | the labels the merge walk emits are a subsequence of the first series' labels |
| SeriesMerge.MergeFromAllDefined | src/test/series.merge.test.ts:9-20 | when every label of a distinct first series is defined on both sides, the walk emits one combined pair per position, in order |
| SeriesMerge.MergeAligned | src/test/series.merge.test.ts:9-20 | two fully defined series on the same default index merge position by position: pair i is (i, combine(xs[i], ys[i])) |
| SeriesExamples.MergeDefaultIndexExample | src/test/series.merge.test.ts:9-20 | [0,1,2] merged with [10,11,12] by addition gives (0,10), (1,12), (2,14) |
| SeriesExamples.MergeUndefinedFirstExample | src/test/series.merge.test.ts:22-31 | [undefined,1,undefined] merged with [10,11,12] gives only (1,12) |
| SeriesExamples.MergeUndefinedSecondExample | src/test/series.merge.test.ts:33-42 | [0,1,2] merged with [10,undefined,undefined] gives only (0,10) |
| SeriesExamples.MergeMismatchedIndexExample | src/test/series.merge.test.ts:44-60 | index [4,5,6] merged with index [5,6,7] gives (5,12), (6,14) |
| SeriesExamples.MergeEmptyExamples | src/test/series.merge.test.ts:62-86 | empty with empty, [0,1,2] with empty and empty with [10,11,12] all give the empty series |
| Iso8601.ParseDigitsOfDigits | src/test/dataframe.serialize.test.ts:75 | reading back a zero-padded decimal field gives the number written |
| Iso8601.DigitsOfParseDigits | src/test/dataframe.serialize.test.ts:75 | a field of digits is the zero-padded writing of the number it denotes |
| Iso8601.LayoutFields | src/test/dataframe.serialize.test.ts:75 | the ISO-8601 string puts its separators and each fixed-width field at fixed positions |
| Iso8601.LayoutOfFields | src/test/dataframe.serialize.test.ts:123-145 | a 24-character string with the separators in place is the layout of its own fields |
| Iso8601.ToIso | src/test/dataframe.serialize.test.ts:75 | `toISOString` writes a 24-character string with the ISO-8601 separators in place |
| Iso8601.ParseIso | src/test/dataframe.serialize.test.ts:123-145 | the ISO parser accepts only strings of the ISO-8601 shape |
| Iso8601.IsoRoundTrip | src/test/dataframe.serialize.test.ts:55-79 | parsing the ISO string of an instant gives that instant back |
| Iso8601.IsoCanonical | src/test/dataframe.serialize.test.ts:123-145 | every accepted string is the ISO string of the instant it parses to |
| Iso8601.ToIsoInjective | src/test/dataframe.serialize.test.ts:55-79 | distinct instants have distinct ISO strings |
| Values.NameInjective | src/test/dataframe.serialize.test.ts:38-42 | distinct kinds have distinct tag strings |
| Values.DateName | src/test/dataframe.serialize.test.ts:64-68 | the tag "date" names the date kind and no other |
| Values.EmptyName | src/test/dataframe.serialize.test.ts:11-23 | the tag "empty" names the empty kind and no other |
| Values.KindOf | src/test/dataframe.serialize.test.ts:38-44 | a value's kind is "empty" exactly for undefined, and "date" exactly for an instant |
| Values.InferKind | src/test/dataframe.serialize.test.ts:38-44 | the inferred tag is "empty" exactly when every value is undefined; otherwise it is the kind of the first defined value |
| Values.InferKindOfFirst | src/test/dataframe.serialize.test.ts:38-44 | the kind of the first defined value is the inferred tag, whatever follows it |
| Values.InferKindName | src/test/dataframe.serialize.test.ts:38-44 | the inferred tag string is "empty" exactly when every value is undefined, and otherwise the tag of the first defined value's kind |
| Values.HomogeneousDates | src/test/dataframe.serialize.test.ts:64-68 | a single-kind column is tagged "date" exactly when it holds an instant and nothing but instants and undefined |
| Frames.DefaultIndex | src/test/series.merge.test.ts:11-19 | the default index of n rows is 0 .. n-1, the labels the merge test pairs with the values |
| Frames.Column | src/test/dataframe.serialize.test.ts:29-33 | column j is cell j of every row, in row order |
| Frames.MakeFrame | src/test/dataframe.serialize.test.ts:26-34 | `new DataFrame({index, columnNames, rows})` succeeds exactly when the names are distinct, every row has one cell per column and an explicit index has one label per row; the frame keeps the names, rows and index, or the default index |
| Frames.MakeEmptyFrame | src/test/dataframe.serialize.test.ts:13 | `new DataFrame()` is the empty frame, of count 0 |
| Codec.ZipMap | src/test/dataframe.serialize.test.ts:47-51 | a record built from names and cells has exactly the names as keys and sends name j to cell j |
| Codec.TagMap | src/test/dataframe.serialize.test.ts:37-42 | the columns section has exactly the column names as keys and tags each with the inferred kind of its column |
| Codec.EncodeCell | src/test/dataframe.serialize.test.ts:73-77 | under the date kind an instant cell travels as its ISO string; every other cell travels unchanged |
| Codec.IndexSection | src/test/dataframe.serialize.test.ts:43-46 | the index section records the index's inferred kind and one transported label per label, in order |
| Codec.Records | src/test/dataframe.serialize.test.ts:47-51 | the values section has one record per row, each keyed by exactly the column names and sending name j to row i's cell j as transported under column j's kind |
| Codec.Serialize | src/test/dataframe.serialize.test.ts:14-22 | serialization fills all four sections of the transport form |
| Codec.MapAll | src/test/dataframe.serialize.test.ts:108-120 | decoding a sequence succeeds exactly when every element decodes, and then gives each element's decoding in order |
| Codec.DecodeDate | src/test/dataframe.serialize.test.ts:132-144 | a transported date cell decodes when undefined (staying undefined) or an accepted ISO string (giving its instant); anything else is InvalidSerializedInput |
| Codec.DecodeCell | src/test/dataframe.serialize.test.ts:134-144 | a cell of a column not tagged "date" is the record's entry, or undefined when the record has none; under the "date" tag decoding fails only with InvalidSerializedInput and otherwise gives undefined or an instant |
| Codec.DecodeIndex | src/test/dataframe.serialize.test.ts:177-190 | a "date" index decodes label by label as dates, an "empty" index has no labels, any other index is taken verbatim |
| Codec.DecodeRow | src/test/dataframe.serialize.test.ts:117-120 | a record decodes exactly when each of its cells, read in column order, decodes, and the row is those cells in column order |
| Codec.DecodeRecords | src/test/dataframe.serialize.test.ts:106-120 | the records decode exactly when every cell of every record decodes; then there is one row per record, one cell per name, and cell (i, j) is record i's entry under name j, decoded |
| Codec.Deserialize | src/test/dataframe.serialize.test.ts:81-91 | an absent input, and an input without an index section, deserialize to the empty frame; every frame deserialization produces is well formed |
| CodecLaws.SerializeNoColumns | src/test/dataframe.serialize.test.ts:11-23 | a frame without columns serializes to {columnOrder: [], columns: {}, index: {type: "empty", values: []}, values: []} |
| CodecLaws.SerializeLayout | src/test/dataframe.serialize.test.ts:25-53 | columnOrder is the column names; columns tags each name with its column's kind; the index section has the index's kind and its labels; values has one record per row sending each name to the transported cell |
| CodecLaws.SerializeTagIsFirstKind | src/test/dataframe.serialize.test.ts:38-42 | a column's tag is the tag of the kind of its first defined cell |
| CodecLaws.SerializeTagEmpty | src/test/dataframe.serialize.test.ts:17-18 | a column is tagged "empty" exactly when none of its cells is defined; the tests use "empty" only as the index type of the empty form, and no test shows such a column |
| CodecLaws.EncodeUnderTag | src/test/dataframe.serialize.test.ts:55-79 | under the tag "date" an instant travels as its ISO string; under any other tag a cell travels unchanged |
| CodecLaws.SerializeCell | src/test/dataframe.serialize.test.ts:55-79 | an instant cell of a "date" column travels as its ISO string; the cells of every other column travel unchanged |
| CodecLaws.SerializeIndex | src/test/dataframe.serialize.test.ts:147-169 | the index is tagged "date" exactly when its inferred kind is date, and its instant labels then travel as ISO strings; any other index travels verbatim |
| CodecLaws.IndexSectionKind | src/test/dataframe.serialize.test.ts:147-169 | the index section is tagged "date" exactly when the index's inferred kind is date |
| CodecLaws.IndexSectionDates | src/test/dataframe.serialize.test.ts:147-169 | in an index section of kind date, every instant label travels as its ISO string |
| CodecLaws.IndexSectionVerbatim | src/test/dataframe.serialize.test.ts:43-46 | an index section of any other kind carries the labels verbatim |
| CodecLaws.DeserializeEmpty | src/test/dataframe.serialize.test.ts:81-91 | an absent input, `{}`, and the empty form tagged "empty" or "number" all give the empty frame, of count 0 |
| CodecLaws.DeserializeLayout | src/test/dataframe.serialize.test.ts:93-121 | deserialization succeeds exactly when the index decodes, columnOrder has no repeat, the index has one label per record and every cell decodes; then count is the number of records, the names are columnOrder, the index is the decoded labels and cell (i, j) is record i's entry under name j, decoded |
| CodecLaws.DecodeCellPassThrough | src/test/dataframe.serialize.test.ts:93-121 | a cell of a column not tagged "date" is the record's entry, or undefined when the record has none |
| CodecLaws.DecodeCellDate | src/test/dataframe.serialize.test.ts:123-145 | a cell of a "date" column holding an instant's ISO string decodes to that instant |
| CodecLaws.MapAllOk | src/test/dataframe.serialize.test.ts:108-120 | when every element decodes to the corresponding target, the whole sequence decodes to the targets |
| CodecLaws.DecodeDatesRoundTrip | src/test/dataframe.serialize.test.ts:171-193 | instants sent as ISO strings decode back to the same instants and undefined stays undefined, in order |
| CodecLaws.DecodeDateRestores | src/test/dataframe.serialize.test.ts:123-145 | only an instant or undefined decodes back to itself from its transport under the date kind |
| CodecLaws.HomogeneousTransportable | src/test/dataframe.serialize.test.ts:55-79 | a sequence whose defined values all have one kind is transportable: when it is tagged "date" it holds only instants and undefined |
| CodecLaws.NonDateLabels | src/test/dataframe.serialize.test.ts:43-46 | labels transported under a kind other than date are unchanged |
| CodecLaws.DecodeIndexRoundTrip | src/test/dataframe.serialize.test.ts:147-193 | an index that is transportable, and empty or with a defined label, decodes from its serialized section back to itself |
| CodecLaws.DecodeEncodedCell | src/test/dataframe.serialize.test.ts:123-145 | a cell transported under a kind, read from a column tagged with that kind, decodes to the cell, provided a date column holds only instants and undefined |
| CodecLaws.CellRoundTrip | src/test/dataframe.serialize.test.ts:55-79 | each serialized cell of a restorable frame decodes to the original cell |
| CodecLaws.DeserializeTo | src/test/dataframe.serialize.test.ts:93-121 | a form whose index and cells decode to a frame's index and cells deserializes to that frame |
| CodecLaws.DecodeRecordsOk | src/test/dataframe.serialize.test.ts:106-120 | records whose cells all decode decode as a whole |
| CodecLaws.DecodeRecordsTo | src/test/dataframe.serialize.test.ts:106-120 | records whose cells decode to those of given rows decode to exactly those rows |
| CodecLaws.RoundTrip | src/test/dataframe.serialize.test.ts:25-193 | deserializing the serialization of a frame gives the frame back (count, column order, index and every cell, instants included) if and only if the frame is restorable and has columns or no rows |
| CodecLaws.SingleKindRoundTrip | src/test/dataframe.serialize.test.ts:25-193 | a frame with columns whose index labels are all defined and of one kind, and whose columns each hold one kind, comes back from its transport form |
| CodecLaws.SectionsRoundTrip | src/test/dataframe.serialize.test.ts:25-193 | the four sections of a restorable frame with columns deserialize to the frame |
| CodecLaws.SectionsRestorable | src/test/dataframe.serialize.test.ts:93-145 | a frame with columns that deserializes from its four sections back to itself is restorable |
| CodecLaws.DeserializedParts | src/test/dataframe.serialize.test.ts:93-121 | a successful deserialization has the decoded index, the column order, one row per record and the decoded cells |
| CodecLaws.DateIndexRestorable | src/test/dataframe.serialize.test.ts:171-193 | a date index that decodes from its section back to itself holds only instants and undefined |
| CodecLaws.EmptyIndexRestorable | src/test/dataframe.serialize.test.ts:17-18 | an index tagged "empty" decodes without labels, so only an index with no labels comes back from it |
| CodecLaws.ColumnRestorable | src/test/dataframe.serialize.test.ts:123-145 | a column whose every cell decodes from its record back to itself holds only instants and undefined when it is a date column |
| CodecLaws.RoundTripNoColumns | src/test/dataframe.serialize.test.ts:11-23 | a frame without columns comes back as the empty frame, losing any rows |
| CodecExamples.May15Fields | src/test/dataframe.serialize.test.ts:75 | the zero-padded fields of 2018-05-15 00:00:00.000 are "2018", "05", "15", "00" and "000" |
| CodecExamples.May15Iso | src/test/dataframe.serialize.test.ts:75 | the ISO string of the test instant is "2018-05-15T00:00:00.000Z" |
| CodecExamples.SerializeEmptyExample | src/test/dataframe.serialize.test.ts:11-23 | `new DataFrame().serialize()` is the canonical empty form |
| CodecExamples.VariousKinds | src/test/dataframe.serialize.test.ts:26-42 | the columns of the various-types frame infer number, string and boolean, and its index number |
| CodecExamples.RecordOfRowABC | src/test/dataframe.serialize.test.ts:47-51 | in a frame with columns A, B, C, none of kind date, row i travels as {A, B, C} sent to its three cells |
| CodecExamples.VariousRecordsExample | src/test/dataframe.serialize.test.ts:47-51 | the values section of the various-types frame is the three records of the test |
| CodecExamples.VariousTags | src/test/dataframe.serialize.test.ts:36-42 | the columns section of the various-types frame is {A: "number", B: "string", C: "boolean"} |
| CodecExamples.VariousIndexSection | src/test/dataframe.serialize.test.ts:43-46 | the index [10, 20, 30] travels as type "number" with values [10, 20, 30] |
| CodecExamples.VariousHeader | src/test/dataframe.serialize.test.ts:36-46 | columnOrder, column tags and index section of the various-types frame are those of the test |
| CodecExamples.SerializeVariousTypesExample | src/test/dataframe.serialize.test.ts:25-53 | the frame with index [10,20,30] and columns A, B, C serializes to exactly the form of the test |
| CodecExamples.VariousRestorable | src/test/dataframe.serialize.test.ts:26-46 | the various-types frame is well formed and restorable: no column is a date column and its index is tagged "number" |
| CodecExamples.DeserializeVariousTypesExample | src/test/dataframe.serialize.test.ts:93-121 | that form deserializes to 3 rows, columns A, B, C, index [10,20,30] and the rows of the test |
| CodecExamples.SingleSerialize | src/test/dataframe.serialize.test.ts:55-79 | a one-cell frame serializes to its one-name form with both tags inferred and both values transported |
| CodecExamples.SingleTags | src/test/dataframe.serialize.test.ts:64-68 | the columns section of a one-cell frame tags A with its cell's kind |
| CodecExamples.SingleIndex | src/test/dataframe.serialize.test.ts:69-72 | the index section of a one-label index is that label's kind and its transported label |
| CodecExamples.SingleRecords | src/test/dataframe.serialize.test.ts:73-77 | the values section of a one-cell frame is [{A: the transported cell}] |
| CodecExamples.SingleRestorable | src/test/dataframe.serialize.test.ts:55-62 | a one-cell frame with a defined label is well formed and restorable |
| CodecExamples.SingleMake | src/test/dataframe.serialize.test.ts:56-62 | `new DataFrame({index: [key], columnNames: ["A"], rows: [[cell]]})` succeeds and gives the one-cell frame |
| CodecExamples.SingleDeserialize | src/test/dataframe.serialize.test.ts:123-145 | the one-name form of a one-cell frame deserializes to that frame |
| CodecExamples.SerializeDatesExample | src/test/dataframe.serialize.test.ts:55-79 | the frame with index [10] and a date in column A serializes with A tagged "date" and the record {A: the date's ISO string} |
| CodecExamples.DeserializeDatesExample | src/test/dataframe.serialize.test.ts:123-145 | that form deserializes to one row holding the date, column A and index [10] |
| CodecExamples.SerializeDateIndexExample | src/test/dataframe.serialize.test.ts:147-169 | the frame indexed by a date serializes with index type "date" and the label as its ISO string, column A tagged "number" |
| CodecExamples.DeserializeDateIndexExample | src/test/dataframe.serialize.test.ts:171-193 | the form with a "date" index deserializes to index [the date], column A and row [10] |

## Left out

- The implementation of `Series`, `DataFrame` and `Index` is not part of this model. Lazy sequences, their restartability and the `Index` class are not modelled. A series is its materialized pairs and a frame its materialized rows.
- dayjs parsing and formatting. Instants are UTC calendar fields with years 0 through 9999, and only the canonical "YYYY-MM-DDTHH:mm:ss.sssZ" form is accepted. Local time zones, other ISO-8601 spellings and years outside that range are not modelled.
- JavaScript numbers are `int`. Floating point, NaN and infinities are not modelled.
- JavaScript object key order in records. Records are maps keyed by column name, and `columnOrder` carries the order.
- The mocha test runner and chai deep equality (`expect(...).to.eql`). Equality is Dafny value equality, and the test scenarios are lemmas.
- The type of the external serialization package. Only the shape of the transport form is modelled.
- Duplicate labels in a series. The tests use distinct labels. The model counts a repeated label once, at its first position in the first series, with each series' value at its first occurrence.
- Columns that mix kinds. The tests never build one. The model tags such a column by its first defined cell and transports the other cells as they are. Two kinds of frame therefore do not come back from their transport form:
  - a frame with a column or index tagged "date" that holds anything besides instants and undefined;
  - a frame with a non-empty index that has no defined label. That index is tagged "empty" and read back without labels.
- Codec.IndexSection: the index type is the inferred kind of the index's first defined label, so an index of strings or booleans is typed "string" or "boolean". The tests show only "number", "date" and "empty" index types and always have a defined first label; both the extra types and reading the first defined label rather than the first label are this model's own choices.
- CodecLaws.RoundTrip: a frame comes back exactly when it is restorable (`CodecLaws.Restorable`, the two conditions above) and has columns or no rows. A frame without columns serializes to the empty form and comes back without its rows (`CodecLaws.RoundTripNoColumns`).
- CodecLaws.SerializeTagEmpty: a column with no defined cell is tagged "empty". This includes every column of a frame without rows. No test shows such a column; the tests use "empty" only as the index type of the empty form (dataframe.serialize.test.ts:18). How the library tags such a column is not part of this model, so this tag is the model's own choice.
- Error behaviour of the library, which the tests never show, is a choice of this model:
  - a frame whose rows do not have one cell per column, or whose explicit index does not have one label per row, is ShapeMismatch;
  - a transport form whose index does not have one label per record deserializes to ShapeMismatch;
  - repeated column names are DuplicateColumnName;
  - an undecodable date is InvalidSerializedInput;
  - a record without a column's entry reads as undefined;
  - a column without a tag passes its cells through unchanged.

=== FILE: codec_examples.dfy ===
/**
 * The scenarios of the serialization test suite, stated as lemmas about the
 * model.  The instant 2018-05-15 is taken at UTC midnight; the tests compare
 * against its `toISOString()`, which is `ToIso(May15)` here.
 */
module CodecExamples {
  import opened Wrappers
  import opened Iso8601
  import opened Values
  import opened Seqs
  import opened Frames
  import opened Codec
  import opened CodecLaws

  const May15: Instant := Temporal(2018, 5, 15, 0, 0, 0, 0)

  /** The zero-padded fields of the test instant. */
  lemma May15Fields()
    ensures Digits(2018, 4) == "2018" && Digits(5, 2) == "05" && Digits(15, 2) == "15"
    ensures Digits(0, 2) == "00" && Digits(0, 3) == "000"
  {
    assert Digits(201, 3) == "201" by {
      assert Digits(20, 2) == "20";
    }
  }

  /** The ISO string of the test instant is the one `toISOString()` gives for 2018-05-15 at UTC midnight. */
  lemma May15Iso()
    ensures ToIso(May15) == "2018-05-15T00:00:00.000Z"
  {
    May15Fields();
    assert ToIso(May15) == Layout("2018", "05", "15", "00", "00", "00", "000");
    May15Layout();
  }

  /** The layout of those fields is the literal ISO string. */
  lemma May15Layout()
    ensures Layout("2018", "05", "15", "00", "00", "00", "000") == "2018-05-15T00:00:00.000Z"
  {
  }

  /** `new DataFrame().serialize()` is the canonical empty form. */
  lemma SerializeEmptyExample()
    ensures MakeFrame(None, [], []).Ok?
    ensures Serialize(MakeFrame(None, [], []).value)
      == SerializedFrame(Some([]), Some(map[]), Some(SerializedIndex("empty", [])), Some([]))
  {
    MakeEmptyFrame();
  }

  /** The frame of the "various types" scenarios: index 10, 20, 30 and columns A (numbers), B (strings), C (booleans). */
  const VariousIndex := [Num(10), Num(20), Num(30)]
  const VariousRows := [[Num(100), Str("a"), Bool(true)], [Num(200), Str("b"), Bool(false)], [Num(300), Str("c"), Bool(false)]]
  const VariousFrame := Frame(["A", "B", "C"], VariousIndex, VariousRows)
  const VariousRecords := [
    map["A" := Num(100), "B" := Str("a"), "C" := Bool(true)],
    map["A" := Num(200), "B" := Str("b"), "C" := Bool(false)],
    map["A" := Num(300), "B" := Str("c"), "C" := Bool(false)]]

  lemma VariousKinds()
    ensures VariousFrame.Valid()
    ensures ColumnKinds(VariousFrame) == [NumberKind, StringKind, BooleanKind]
    ensures InferKind(VariousIndex) == NumberKind
  {
    var f := VariousFrame;
    assert Distinct(["A", "B", "C"]);
    InferKindOfFirst(Column(f, 0), 0);
    InferKindOfFirst(Column(f, 1), 0);
    InferKindOfFirst(Column(f, 2), 0);
    InferKindOfFirst(VariousIndex, 0);
  }

  lemma Seq3<T>(s: seq<T>, a: T, b: T, c: T)
    requires |s| == 3 && s[0] == a && s[1] == b && s[2] == c
    ensures s == [a, b, c]
  {
  }

  /** A record with keys A, B, C is the map literal of its three entries. */
  lemma RecordABC<V>(r: map<string, V>, a: V, b: V, c: V)
    requires r.Keys == Elems(["A", "B", "C"])
    requires "A" in r && r["A"] == a && "B" in r && r["B"] == b && "C" in r && r["C"] == c
    ensures r == map["A" := a, "B" := b, "C" := c]
  {
    assert Elems(["A", "B", "C"]) == {"A", "B", "C"};
  }

  /** A row of a frame with columns A, B, C, none of them dates, travels as its cells keyed by column name. */
  lemma RecordOfRowABC(f: Frame, i: nat)
    requires f.Valid() && f.columnNames == ["A", "B", "C"] && i < f.Count()
    requires forall j | 0 <= j < 3 :: InferKind(Column(f, j)) != DateKind
    ensures Records(f)[i] == map["A" := f.rows[i][0], "B" := f.rows[i][1], "C" := f.rows[i][2]]
  {
    var r := Records(f)[i];
    forall j | 0 <= j < 3 ensures r[f.columnNames[j]] == f.rows[i][j] {
    }
    RecordABC(r, f.rows[i][0], f.rows[i][1], f.rows[i][2]);
  }

  /** The values section of the frame is the three records of the test, the cells unchanged since no column holds dates. */
  lemma VariousRecordsExample()
    ensures VariousFrame.Valid()
    ensures Serialize(VariousFrame).values == Some(VariousRecords)
  {
    VariousKinds();
    var f := VariousFrame;
    forall j | 0 <= j < 3 ensures InferKind(Column(f, j)) != DateKind {
      assert InferKind(Column(f, j)) == ColumnKinds(f)[j];
    }
    RecordOfRowABC(f, 0);
    RecordOfRowABC(f, 1);
    RecordOfRowABC(f, 2);
    var recs := Records(f);
    Seq3(recs, VariousRecords[0], VariousRecords[1], VariousRecords[2]);
  }

  /** The columns section of the various-types frame tags A, B, C number, string and boolean. */
  lemma VariousTags()
    ensures VariousFrame.Valid()
    ensures TagMap(VariousFrame) == map["A" := "number", "B" := "string", "C" := "boolean"]
  {
    VariousKinds();
    var f := VariousFrame;
    var tags := TagMap(f);
    assert tags["A"] == "number" by { assert InferKind(Column(f, 0)) == ColumnKinds(f)[0]; }
    assert tags["B"] == "string" by { assert InferKind(Column(f, 1)) == ColumnKinds(f)[1]; }
    assert tags["C"] == "boolean" by { assert InferKind(Column(f, 2)) == ColumnKinds(f)[2]; }
    RecordABC(tags, "number", "string", "boolean");
  }

  /** The index [10, 20, 30] is tagged "number" and travels verbatim. */
  lemma VariousIndexSection()
    ensures IndexSection(VariousIndex) == SerializedIndex("number", VariousIndex)
  {
    VariousKinds();
    var si := IndexSection(VariousIndex);
    Seq3(si.values, Num(10), Num(20), Num(30));
  }

  /** The columnOrder, columns and index sections of the various-types frame are those of the test. */
  lemma VariousHeader()
    ensures VariousFrame.Valid()
    ensures Serialize(VariousFrame).columnOrder == Some(["A", "B", "C"])
    ensures Serialize(VariousFrame).columns == Some(map["A" := "number", "B" := "string", "C" := "boolean"])
    ensures Serialize(VariousFrame).index == Some(SerializedIndex("number", VariousIndex))
  {
    VariousTags();
    VariousIndexSection();
  }

  lemma Fields(s: SerializedFrame, s': SerializedFrame)
    requires s.columnOrder == s'.columnOrder && s.columns == s'.columns
    requires s.index == s'.index && s.values == s'.values
    ensures s == s'
  {
  }

  /** `serialize()` of the frame with index [10, 20, 30] and columns A, B, C. */
  lemma SerializeVariousTypesExample()
    ensures MakeFrame(Some(VariousIndex), ["A", "B", "C"], VariousRows) == Ok(VariousFrame)
    ensures Serialize(VariousFrame)
      == SerializedFrame(
           Some(["A", "B", "C"]),
           Some(map["A" := "number", "B" := "string", "C" := "boolean"]),
           Some(SerializedIndex("number", VariousIndex)),
           Some(VariousRecords))
  {
    VariousHeader();
    VariousRecordsExample();
    Fields(Serialize(VariousFrame), SerializedFrame(
           Some(["A", "B", "C"]),
           Some(map["A" := "number", "B" := "string", "C" := "boolean"]),
           Some(SerializedIndex("number", VariousIndex)),
           Some(VariousRecords)));
  }

  /** The input of the "deserialize various types" scenario: exactly what serializing the frame produces. */
  const VariousForm := SerializedFrame(
    Some(["A", "B", "C"]),
    Some(map["A" := "number", "B" := "string", "C" := "boolean"]),
    Some(SerializedIndex("number", VariousIndex)),
    Some(VariousRecords))

  /** The various-types frame is well formed and comes back from its transport form: no column is a date column and the index is tagged "number". */
  lemma VariousRestorable()
    ensures VariousFrame.Valid() && Restorable(VariousFrame)
  {
    VariousKinds();
    var f := VariousFrame;
    forall j | 0 <= j < 3
      ensures Transportable(Column(f, j))
    {
      assert InferKind(Column(f, j)) == ColumnKinds(f)[j];
    }
  }

  /** `DataFrame.deserialize` of the various-types form: 3 rows, columns A, B, C, index 10, 20, 30 and the original rows. */
  lemma DeserializeVariousTypesExample()
    ensures Deserialize(Some(VariousForm)) == Ok(VariousFrame)
    ensures VariousFrame.Count() == 3 && VariousFrame.columnNames == ["A", "B", "C"]
    ensures VariousFrame.index == [Num(10), Num(20), Num(30)]
    ensures VariousFrame.rows == [[Num(100), Str("a"), Bool(true)], [Num(200), Str("b"), Bool(false)], [Num(300), Str("c"), Bool(false)]]
  {
    SerializeVariousTypesExample();
    VariousRestorable();
    RoundTrip(VariousFrame);
  }

  // ---------------------------------------------------------------------------
  // One-column, one-row frames (the date scenarios)
  // ---------------------------------------------------------------------------

  function Single(key: Value, cell: Value): Frame {
    Frame(["A"], [key], [[cell]])
  }

  /** The transport form of a one-cell frame whose label and cell are both present. */
  function SingleForm(key: Value, cell: Value): SerializedFrame {
    SerializedFrame(
      Some(["A"]),
      Some(map["A" := KindOf(cell).Name()]),
      Some(SerializedIndex(KindOf(key).Name(), [EncodeCell(KindOf(key), key)])),
      Some([map["A" := EncodeCell(KindOf(cell), cell)]]))
  }

  /** A map whose only key is "A". */
  lemma SingleKey<V>(m: map<string, V>)
    requires m.Keys == Elems(["A"])
    ensures m == map["A" := m["A"]]
  {
    assert Elems(["A"]) == {"A"};
  }

  /** The columns section of a one-cell frame tags "A" with the kind of its cell. */
  lemma SingleTags(key: Value, cell: Value)
    requires !cell.Missing?
    ensures Single(key, cell).Valid()
    ensures TagMap(Single(key, cell)) == map["A" := KindOf(cell).Name()]
  {
    var f := Single(key, cell);
    assert Distinct(["A"]);
    InferKindOfFirst(Column(f, 0), 0);
    SingleKey(TagMap(f));
  }

  /** The index section of a one-label index holds the label's kind and its transported label. */
  lemma SingleIndex(key: Value)
    requires !key.Missing?
    ensures IndexSection([key]) == SerializedIndex(KindOf(key).Name(), [EncodeCell(KindOf(key), key)])
  {
    InferKindOfFirst([key], 0);
  }

  /** The values section of a one-cell frame is one record sending "A" to the transported cell. */
  lemma SingleRecords(key: Value, cell: Value)
    requires !cell.Missing?
    ensures Single(key, cell).Valid()
    ensures Records(Single(key, cell)) == [map["A" := EncodeCell(KindOf(cell), cell)]]
  {
    var f := Single(key, cell);
    assert Distinct(["A"]);
    InferKindOfFirst(Column(f, 0), 0);
    var recs := Records(f);
    SingleKey(recs[0]);
  }

  /** A one-cell frame with a defined label is well formed and comes back from its transport form. */
  lemma SingleRestorable(key: Value, cell: Value)
    requires !key.Missing?
    ensures Single(key, cell).Valid() && Restorable(Single(key, cell))
  {
    var f := Single(key, cell);
    assert Distinct(["A"]);
    InferKindOfFirst([key], 0);
    if !cell.Missing? {
      InferKindOfFirst(Column(f, 0), 0);
    }
  }

  /** A one-cell frame with a defined label and cell serializes to its one-name form. */
  lemma SingleSerialize(key: Value, cell: Value)
    requires !key.Missing? && !cell.Missing?
    ensures Single(key, cell).Valid() && Restorable(Single(key, cell))
    ensures Serialize(Single(key, cell)) == SingleForm(key, cell)
  {
    var f := Single(key, cell);
    SingleRestorable(key, cell);
    SingleTags(key, cell);
    SingleIndex(key);
    SingleRecords(key, cell);
    assert Serialize(f) == SerializedFrame(Some(["A"]), Some(TagMap(f)), Some(IndexSection([key])), Some(Records(f)));
  }

  /** `new DataFrame({ index: [key], columnNames: ["A"], rows: [[cell]] })` is the one-cell frame. */
  lemma SingleMake(key: Value, cell: Value)
    ensures MakeFrame(Some([key]), ["A"], [[cell]]) == Ok(Single(key, cell))
  {
    assert Distinct(["A"]);
  }

  /** A one-cell frame comes back from its transport form. */
  lemma SingleDeserialize(key: Value, cell: Value)
    requires !key.Missing? && !cell.Missing?
    ensures Deserialize(Some(SingleForm(key, cell))) == Ok(Single(key, cell))
  {
    SingleSerialize(key, cell);
    RoundTrip(Single(key, cell));
  }

  /** `serialize()` of the frame with index [10] and one date in column A: the column is tagged "date" and the date travels as its ISO string. */
  lemma SerializeDatesExample()
    ensures MakeFrame(Some([Num(10)]), ["A"], [[Date(May15)]]) == Ok(Single(Num(10), Date(May15)))
    ensures Serialize(Single(Num(10), Date(May15)))
      == SerializedFrame(
           Some(["A"]),
           Some(map["A" := "date"]),
           Some(SerializedIndex("number", [Num(10)])),
           Some([map["A" := Str(ToIso(May15))]]))
  {
    SingleMake(Num(10), Date(May15));
    SingleSerialize(Num(10), Date(May15));
  }

  /** `DataFrame.deserialize` of a form with a "date" column: the ISO string comes back as the date. */
  lemma DeserializeDatesExample()
    ensures Deserialize(Some(SerializedFrame(
              Some(["A"]),
              Some(map["A" := "date"]),
              Some(SerializedIndex("number", [Num(10)])),
              Some([map["A" := Str(ToIso(May15))]]))))
      == Ok(Frame(["A"], [Num(10)], [[Date(May15)]]))
  {
    SingleDeserialize(Num(10), Date(May15));
  }

  /** `serialize()` of the frame indexed by one date: the index is tagged "date" and its label travels as its ISO string. */
  lemma SerializeDateIndexExample()
    ensures MakeFrame(Some([Date(May15)]), ["A"], [[Num(1)]]) == Ok(Single(Date(May15), Num(1)))
    ensures Serialize(Single(Date(May15), Num(1)))
      == SerializedFrame(
           Some(["A"]),
           Some(map["A" := "number"]),
           Some(SerializedIndex("date", [Str(ToIso(May15))])),
           Some([map["A" := Num(1)]]))
  {
    SingleMake(Date(May15), Num(1));
    SingleSerialize(Date(May15), Num(1));
  }

  /** `DataFrame.deserialize` of a form whose index is tagged "date": the label comes back as the date. */
  lemma DeserializeDateIndexExample()
    ensures Deserialize(Some(SerializedFrame(
              Some(["A"]),
              Some(map["A" := "number"]),
              Some(SerializedIndex("date", [Str(ToIso(May15))])),
              Some([map["A" := Num(10)]]))))
      == Ok(Frame(["A"], [Date(May15)], [[Num(10)]]))
  {
    SingleDeserialize(Date(May15), Num(10));
  }
}

=== FILE: codec_laws.dfy ===
/**
 * What serialization and deserialization promise, and the round trip between them.
 */
module CodecLaws {
  import opened Wrappers
  import opened Iso8601
  import opened Values
  import opened Seqs
  import opened Frames
  import opened Codec

  /** A frame without columns serializes to the canonical empty form, whatever its row count. */
  lemma SerializeNoColumns(f: Frame)
    requires f.Valid() && |f.columnNames| == 0
    ensures Serialize(f) == EmptyForm
    ensures Serialize(EmptyFrame) == SerializedFrame(Some([]), Some(map[]), Some(SerializedIndex("empty", [])), Some([]))
  {
  }

  /**
   * The layout of a serialized frame with columns: `columnOrder` is the column
   * names; `columns` tags each of them with its inferred kind; the index
   * section carries the index's inferred kind and its labels; `values` has one
   * record per row sending each column name to that row's transported cell.
   */
  lemma SerializeLayout(f: Frame)
    requires f.Valid() && |f.columnNames| > 0
    ensures var s := Serialize(f);
      && s.columnOrder == Some(f.columnNames)
      && s.columns.value.Keys == Elems(f.columnNames)
      && (forall j | 0 <= j < |f.columnNames| :: s.columns.value[f.columnNames[j]] == InferKind(Column(f, j)).Name())
      && s.index.value.kind == InferKind(f.index).Name()
      && |s.index.value.values| == |f.index|
      && (forall i | 0 <= i < |f.index| :: s.index.value.values[i] == EncodeCell(InferKind(f.index), f.index[i]))
      && |s.values.value| == f.Count()
      && (forall i | 0 <= i < f.Count() :: s.values.value[i].Keys == Elems(f.columnNames))
      && (forall i, j | 0 <= i < f.Count() && 0 <= j < |f.columnNames| ::
            s.values.value[i][f.columnNames[j]] == EncodeCell(InferKind(Column(f, j)), f.rows[i][j]))
  {
    assert Serialize(f) == SerializedFrame(Some(f.columnNames), Some(TagMap(f)), Some(IndexSection(f.index)), Some(Records(f)));
  }

  /** A column is tagged "empty" exactly when none of its cells is defined. */
  lemma SerializeTagEmpty(f: Frame, j: nat)
    requires f.Valid() && j < |f.columnNames|
    ensures Serialize(f).columns.value[f.columnNames[j]] == "empty" <==> forall i | 0 <= i < f.Count() :: Column(f, j)[i].Missing?
  {
    InferKindName(Column(f, j));
    assert Serialize(f).columns.value[f.columnNames[j]] == InferKind(Column(f, j)).Name();
  }

  /** A column's tag is the kind of its first defined cell: "number", "string", "boolean" or "date". */
  lemma SerializeTagIsFirstKind(f: Frame, j: nat)
    requires f.Valid() && j < |f.columnNames|
    ensures forall i: nat | FirstDefined(Column(f, j), i) ::
      Serialize(f).columns.value[f.columnNames[j]] == KindOf(Column(f, j)[i]).Name()
  {
    InferKindName(Column(f, j));
    assert Serialize(f).columns.value[f.columnNames[j]] == InferKind(Column(f, j)).Name();
  }

  /** Under a "date" tag an instant travels as its ISO string; under any other tag a cell travels unchanged. */
  lemma EncodeUnderTag(k: Kind, v: Value)
    ensures k.Name() == "date" && v.Date? ==> EncodeCell(k, v) == Str(ToIso(v.t))
    ensures k.Name() != "date" ==> EncodeCell(k, v) == v
  {
    DateName(k);
  }

  /**
   * Cells of a "date" column travel as the ISO strings of their instants; the
   * cells of every other column travel unchanged.
   */
  lemma SerializeCell(f: Frame, i: nat, j: nat)
    requires f.Valid() && i < f.Count() && j < |f.columnNames|
    ensures var s := Serialize(f);
      var cell := f.rows[i][j];
      var out := s.values.value[i][f.columnNames[j]];
      && (s.columns.value[f.columnNames[j]] == "date" && cell.Date? ==> out == Str(ToIso(cell.t)))
      && (s.columns.value[f.columnNames[j]] != "date" ==> out == cell)
  {
    var k := InferKind(Column(f, j));
    assert Serialize(f).columns.value[f.columnNames[j]] == k.Name();
    assert Serialize(f).values.value[i][f.columnNames[j]] == EncodeCell(k, f.rows[i][j]);
    EncodeUnderTag(k, f.rows[i][j]);
  }

  /**
   * The index section is tagged "date" exactly when the first defined label is
   * an instant, and then every instant label travels as its ISO string; any
   * other index travels verbatim.
   */
  lemma SerializeIndex(f: Frame)
    requires f.Valid() && |f.columnNames| > 0
    ensures var si := Serialize(f).index.value;
      && (si.kind == "date" <==> InferKind(f.index) == DateKind)
      && (si.kind == "date" ==> forall i | 0 <= i < |f.index| && f.index[i].Date? :: si.values[i] == Str(ToIso(f.index[i].t)))
      && (si.kind != "date" ==> si.values == f.index)
  {
    assert Serialize(f).index.value == IndexSection(f.index);
    IndexSectionKind(f.index);
    if InferKind(f.index) == DateKind {
      IndexSectionDates(f.index);
    } else {
      IndexSectionVerbatim(f.index);
    }
  }

  /** The index section is tagged "date" exactly when the index's inferred kind is date. */
  lemma IndexSectionKind(index: seq<Value>)
    ensures IndexSection(index).kind == "date" <==> InferKind(index) == DateKind
  {
    DateName(InferKind(index));
  }

  /** In an index section tagged "date", every instant label travels as its ISO string. */
  lemma IndexSectionDates(index: seq<Value>)
    requires InferKind(index) == DateKind
    ensures forall i | 0 <= i < |index| && index[i].Date? :: IndexSection(index).values[i] == Str(ToIso(index[i].t))
  {
    var si := IndexSection(index);
    forall i | 0 <= i < |index| && index[i].Date? ensures si.values[i] == Str(ToIso(index[i].t)) {
      assert si.values[i] == EncodeCell(DateKind, index[i]);
    }
  }

  /** Any other index section carries the labels verbatim. */
  lemma IndexSectionVerbatim(index: seq<Value>)
    requires InferKind(index) != DateKind
    ensures IndexSection(index).values == index
  {
    NonDateLabels(InferKind(index), index);
  }

  /** An absent input, `{}`, and the empty form (tagged "empty" or "number") all deserialize to a frame of count 0. */
  lemma DeserializeEmpty()
    ensures Deserialize(None) == Ok(EmptyFrame)
    ensures Deserialize(Some(SerializedFrame(None, None, None, None))) == Ok(EmptyFrame)
    ensures Deserialize(Some(EmptyForm)) == Ok(EmptyFrame)
    ensures Deserialize(Some(SerializedFrame(Some([]), Some(map[]), Some(SerializedIndex("number", [])), Some([]))))
      == Ok(EmptyFrame)
    ensures EmptyFrame.Count() == 0
  {
    assert Distinct<string>([]);
  }

  /**
   * Deserializing a record with an index section: it succeeds exactly when the
   * index decodes, `columnOrder` has no repeated name, the index has one label
   * per record and every cell decodes; the frame then has one row per record,
   * `columnOrder` as its column names, the decoded index, and as cell (i, j)
   * the decoded entry of record i under the j-th name.
   */
  lemma DeserializeLayout(s: SerializedFrame)
    requires s.index.Some?
    ensures var r := Deserialize(Some(s));
      var names := s.columnOrder.GetOr([]);
      var tags := s.columns.GetOr(map[]);
      var records := s.values.GetOr([]);
      var labels := DecodeIndex(s.index.value);
      && (r.Ok? <==>
            && labels.Ok?
            && Distinct(names)
            && |labels.value| == |records|
            && forall i, j | 0 <= i < |records| && 0 <= j < |names| :: DecodeCell(tags, records[i], names[j]).Ok?)
      && (r.Ok? ==>
            && r.value.Count() == |records|
            && r.value.columnNames == names
            && r.value.index == labels.value
            && forall i, j | 0 <= i < |records| && 0 <= j < |names| :: DecodeCell(tags, records[i], names[j]) == Ok(r.value.rows[i][j]))
  {
    var r := Deserialize(Some(s));
    var names := s.columnOrder.GetOr([]);
    var tags := s.columns.GetOr(map[]);
    var records := s.values.GetOr([]);
    var labels := DecodeIndex(s.index.value);
  }

  /** A cell of a column tagged other than "date" is the record's entry, undefined when the record has none. */
  lemma DecodeCellPassThrough(tags: map<string, string>, rec: Record, name: string)
    requires name !in tags || tags[name] != "date"
    ensures DecodeCell(tags, rec, name) == Ok(if name in rec then rec[name] else Missing)
  {
  }

  /** A cell of a "date" column is the instant its ISO string denotes. */
  lemma DecodeCellDate(tags: map<string, string>, rec: Record, name: string, t: Instant)
    requires name in tags && tags[name] == "date" && name in rec && rec[name] == Str(ToIso(t))
    ensures DecodeCell(tags, rec, name) == Ok(Date(t))
  {
    IsoRoundTrip(t);
  }

  /** Every value is an instant or undefined. */
  predicate DatesOnly(cells: seq<Value>) {
    forall i | 0 <= i < |cells| :: cells[i].Missing? || cells[i].Date?
  }

  /** A sequence tagged "date" holds nothing but instants and undefined, so every value survives its transport. */
  predicate Transportable(cells: seq<Value>) {
    InferKind(cells) == DateKind ==> DatesOnly(cells)
  }

  /**
   * The frames that come back from their transport form: every column and the
   * index are transportable, and a non-empty index has a defined label (an
   * index tagged "empty" is read back without labels).
   */
  predicate Restorable(f: Frame)
    requires f.Valid()
  {
    && Transportable(f.index)
    && (InferKind(f.index) == EmptyKind ==> |f.index| == 0)
    && forall j | 0 <= j < |f.columnNames| :: Transportable(Column(f, j))
  }

  /** A sequence whose defined values all have one kind is transportable. */
  lemma HomogeneousTransportable(cells: seq<Value>)
    requires Homogeneous(cells)
    ensures Transportable(cells)
  {
    HomogeneousDates(cells);
  }

  /** When every element decodes to its target, the whole sequence decodes to the targets. */
  lemma MapAllOk<X, Y>(xs: seq<X>, g: X -> Result<Y, Error>, ys: seq<Y>)
    requires |ys| == |xs| && forall i | 0 <= i < |xs| :: g(xs[i]) == Ok(ys[i])
    ensures MapAll(xs, g) == Ok(ys)
  {
    var r := MapAll(xs, g);
    assert r.value == ys;
  }

  /** Instants sent as ISO strings decode back to the same instants, and undefined stays undefined. */
  lemma DecodeDatesRoundTrip(labels: seq<Value>)
    requires DatesOnly(labels)
    ensures MapAll(EncodeCells(DateKind, labels), DecodeDate) == Ok(labels)
  {
    var sent := EncodeCells(DateKind, labels);
    forall i | 0 <= i < |labels| ensures DecodeDate(sent[i]) == Ok(labels[i]) {
      if labels[i].Date? {
        IsoRoundTrip(labels[i].t);
      }
    }
    MapAllOk(sent, DecodeDate, labels);
  }

  /** Only an instant or undefined comes back from its transport under the date kind. */
  lemma DecodeDateRestores(v: Value)
    requires DecodeDate(EncodeCell(DateKind, v)) == Ok(v)
    ensures v.Missing? || v.Date?
  {
  }

  /** Labels of a kind other than date travel verbatim. */
  lemma NonDateLabels(k: Kind, labels: seq<Value>)
    requires k != DateKind
    ensures EncodeCells(k, labels) == labels
  {
    assert forall i | 0 <= i < |labels| :: EncodeCells(k, labels)[i] == labels[i];
  }

  /** A transportable index that is empty or has a defined label decodes from its section back to itself. */
  lemma DecodeIndexRoundTrip(labels: seq<Value>)
    requires Transportable(labels)
    requires InferKind(labels) == EmptyKind ==> |labels| == 0
    ensures var k := InferKind(labels);
      DecodeIndex(SerializedIndex(k.Name(), EncodeCells(k, labels))) == Ok(labels)
  {
    var k := InferKind(labels);
    var si := SerializedIndex(k.Name(), EncodeCells(k, labels));
    if k == DateKind {
      DecodeDatesRoundTrip(labels);
      assert si.kind == "date";
    } else if k == EmptyKind {
      assert labels == [];
      assert si.kind == "empty";
    } else {
      DateName(k);
      EmptyName(k);
      NonDateLabels(k, labels);
    }
  }

  /** A cell transported under kind `k`, in a column tagged with `k`, decodes to itself. */
  lemma DecodeEncodedCell(tags: map<string, string>, rec: Record, name: string, k: Kind, cell: Value)
    requires name in tags && tags[name] == k.Name() && name in rec && rec[name] == EncodeCell(k, cell)
    requires k == DateKind ==> cell.Missing? || cell.Date?
    ensures DecodeCell(tags, rec, name) == Ok(cell)
  {
    if k == DateKind {
      if cell.Date? {
        IsoRoundTrip(cell.t);
      }
    } else {
      DateName(k);
    }
  }

  /** A cell comes back as it went: instants of a "date" column through their ISO strings, all others verbatim. */
  lemma CellRoundTrip(f: Frame, i: nat, j: nat)
    requires f.Valid() && Restorable(f) && |f.columnNames| > 0
    requires i < f.Count() && j < |f.columnNames|
    ensures DecodeCell(TagMap(f), Records(f)[i], f.columnNames[j]) == Ok(f.rows[i][j])
  {
    var col := Column(f, j);
    var k := InferKind(col);
    var cell := f.rows[i][j];
    assert col[i] == cell;
    assert Transportable(col);
    DecodeEncodedCell(TagMap(f), Records(f)[i], f.columnNames[j], k, cell);
  }

  /** A record whose index and cells decode to those of `f` deserializes to `f`. */
  lemma DeserializeTo(s: SerializedFrame, f: Frame)
    requires f.Valid() && s.index.Some? && s.columnOrder == Some(f.columnNames)
    requires DecodeIndex(s.index.value) == Ok(f.index)
    requires s.values.Some? && |s.values.value| == f.Count()
    requires forall i, j | 0 <= i < f.Count() && 0 <= j < |f.columnNames| ::
      DecodeCell(s.columns.GetOr(map[]), s.values.value[i], f.columnNames[j]) == Ok(f.rows[i][j])
    ensures Deserialize(Some(s)) == Ok(f)
  {
    DecodeRecordsTo(f.columnNames, s.columns.GetOr(map[]), s.values.value, f.rows);
  }

  /** Records whose cells all decode decode as a whole. */
  lemma DecodeRecordsOk(names: seq<string>, tags: map<string, string>, records: seq<Record>, rows: seq<seq<Value>>)
    requires |records| == |rows| && forall i | 0 <= i < |rows| :: |rows[i]| == |names|
    requires forall i, j | 0 <= i < |rows| && 0 <= j < |names| :: DecodeCell(tags, records[i], names[j]) == Ok(rows[i][j])
    ensures DecodeRecords(names, tags, records).Ok?
  {
    forall i, j | 0 <= i < |rows| && 0 <= j < |names|
      ensures DecodeCell(tags, records[i], names[j]).Ok?
    {
    }
  }

  /** Records whose cells decode to those of `rows` decode to `rows`. */
  lemma DecodeRecordsTo(names: seq<string>, tags: map<string, string>, records: seq<Record>, rows: seq<seq<Value>>)
    requires |records| == |rows| && forall i | 0 <= i < |rows| :: |rows[i]| == |names|
    requires forall i, j | 0 <= i < |rows| && 0 <= j < |names| :: DecodeCell(tags, records[i], names[j]) == Ok(rows[i][j])
    ensures DecodeRecords(names, tags, records) == Ok(rows)
  {
    DecodeRecordsOk(names, tags, records, rows);
    var r := DecodeRecords(names, tags, records).value;
    forall i, j | 0 <= i < |rows| && 0 <= j < |names| ensures r[i][j] == rows[i][j] {
      assert DecodeCell(tags, records[i], names[j]) == Ok(r[i][j]);
    }
    SameCells(r, rows, |names|);
  }

  lemma SameCells(a: seq<seq<Value>>, b: seq<seq<Value>>, n: nat)
    requires |a| == |b| && forall i | 0 <= i < |a| :: |a[i]| == n && |b[i]| == n
    requires forall i, j | 0 <= i < |a| && 0 <= j < n :: a[i][j] == b[i][j]
    ensures a == b
  {
    forall i | 0 <= i < |a| ensures a[i] == b[i] {
      assert forall j | 0 <= j < n :: a[i][j] == b[i][j];
    }
  }

  /**
   * Round trip: deserializing the serialization of a frame gives the frame
   * back — count, column order, index and every cell, instants included —
   * exactly when the frame is restorable and has columns or no rows.
   */
  lemma RoundTrip(f: Frame)
    requires f.Valid()
    ensures Deserialize(Some(Serialize(f))) == Ok(f) <==> Restorable(f) && (|f.columnNames| > 0 || f.Count() == 0)
  {
    if |f.columnNames| == 0 {
      DeserializeEmpty();
      if f.Count() == 0 {
        assert f == EmptyFrame;
      } else {
        assert f.rows != EmptyFrame.rows;
      }
    } else {
      SerializeLayout(f);
      if Restorable(f) {
        SectionsRoundTrip(f);
      }
      if Deserialize(Some(Serialize(f))) == Ok(f) {
        SectionsRestorable(f);
      }
    }
  }

  /** The four sections of a restorable frame with columns deserialize to the frame. */
  lemma SectionsRoundTrip(f: Frame)
    requires f.Valid() && Restorable(f) && |f.columnNames| > 0
    ensures Deserialize(Some(SerializedFrame(Some(f.columnNames), Some(TagMap(f)), Some(IndexSection(f.index)), Some(Records(f))))) == Ok(f)
  {
    var s := SerializedFrame(Some(f.columnNames), Some(TagMap(f)), Some(IndexSection(f.index)), Some(Records(f)));
    DecodeIndexRoundTrip(f.index);
    forall i, j | 0 <= i < f.Count() && 0 <= j < |f.columnNames|
      ensures DecodeCell(TagMap(f), Records(f)[i], f.columnNames[j]) == Ok(f.rows[i][j])
    {
      CellRoundTrip(f, i, j);
    }
    DeserializeTo(s, f);
  }

  /** A frame with columns that comes back from its four sections is restorable. */
  lemma SectionsRestorable(f: Frame)
    requires f.Valid() && |f.columnNames| > 0
    requires Deserialize(Some(SerializedFrame(Some(f.columnNames), Some(TagMap(f)), Some(IndexSection(f.index)), Some(Records(f))))) == Ok(f)
    ensures Restorable(f)
  {
    var s := SerializedFrame(Some(f.columnNames), Some(TagMap(f)), Some(IndexSection(f.index)), Some(Records(f)));
    DeserializedParts(s, f);
    if InferKind(f.index) == DateKind {
      DateIndexRestorable(f.index);
    } else if InferKind(f.index) == EmptyKind {
      EmptyIndexRestorable(f.index);
    }
    forall j | 0 <= j < |f.columnNames| ensures Transportable(Column(f, j)) {
      ColumnRestorable(f, j);
    }
  }

  /** An index tagged "empty" decodes without labels, so only the empty index comes back from it. */
  lemma EmptyIndexRestorable(labels: seq<Value>)
    requires InferKind(labels) == EmptyKind
    requires DecodeIndex(IndexSection(labels)) == Ok(labels)
    ensures |labels| == 0
  {
    var si := IndexSection(labels);
    assert si.kind == "empty";
    assert DecodeIndex(si) == Ok([]);
  }

  /** What a successful deserialization gives: the decoded index, the column order, one row per record, and the decoded cells. */
  lemma DeserializedParts(s: SerializedFrame, f: Frame)
    requires s.index.Some? && Deserialize(Some(s)) == Ok(f)
    ensures DecodeIndex(s.index.value) == Ok(f.index)
    ensures f.columnNames == s.columnOrder.GetOr([]) && f.Count() == |s.values.GetOr([])|
    ensures forall i, j | 0 <= i < f.Count() && 0 <= j < |f.columnNames| ::
      DecodeCell(s.columns.GetOr(map[]), s.values.GetOr([])[i], f.columnNames[j]) == Ok(f.rows[i][j])
  {
    DeserializeLayout(s);
  }

  /** A date index that decodes from its section back to itself holds only instants and undefined. */
  lemma DateIndexRestorable(labels: seq<Value>)
    requires InferKind(labels) == DateKind
    requires DecodeIndex(IndexSection(labels)) == Ok(labels)
    ensures DatesOnly(labels)
  {
    var si := IndexSection(labels);
    assert si.kind == "date";
    forall i | 0 <= i < |labels| ensures labels[i].Missing? || labels[i].Date? {
      assert DecodeDate(si.values[i]) == Ok(labels[i]);
      DecodeDateRestores(labels[i]);
    }
  }

  /** A column whose every cell decodes from its record back to itself is transportable. */
  lemma ColumnRestorable(f: Frame, j: nat)
    requires f.Valid() && j < |f.columnNames|
    requires forall i | 0 <= i < f.Count() :: DecodeCell(TagMap(f), Records(f)[i], f.columnNames[j]) == Ok(f.rows[i][j])
    ensures Transportable(Column(f, j))
  {
    var col := Column(f, j);
    if InferKind(col) == DateKind {
      var name := f.columnNames[j];
      assert TagMap(f)[name] == "date";
      forall i | 0 <= i < |col| ensures col[i].Missing? || col[i].Date? {
        var rec := Records(f)[i];
        assert rec[name] == EncodeCell(DateKind, col[i]);
        assert DecodeCell(TagMap(f), rec, name) == DecodeDate(rec[name]);
        DecodeDateRestores(col[i]);
      }
    }
  }

  /** A frame whose index labels are all defined and of one kind, and whose columns each hold one kind, comes back from its transport form when it has columns. */
  lemma SingleKindRoundTrip(f: Frame)
    requires f.Valid() && |f.columnNames| > 0
    requires forall i | 0 <= i < |f.index| :: !f.index[i].Missing?
    requires Homogeneous(f.index)
    requires forall j | 0 <= j < |f.columnNames| :: Homogeneous(Column(f, j))
    ensures Deserialize(Some(Serialize(f))) == Ok(f)
  {
    HomogeneousTransportable(f.index);
    if |f.index| > 0 {
      assert FirstDefined(f.index, 0);
      InferKindOfFirst(f.index, 0);
    }
    forall j | 0 <= j < |f.columnNames| ensures Transportable(Column(f, j)) {
      HomogeneousTransportable(Column(f, j));
    }
    assert Restorable(f);
    RoundTrip(f);
  }

  /** A frame without columns loses its rows on the way: it comes back as the empty frame. */
  lemma RoundTripNoColumns(f: Frame)
    requires f.Valid() && |f.columnNames| == 0
    ensures Deserialize(Some(Serialize(f))) == Ok(EmptyFrame)
  {
    DeserializeEmpty();
  }
}

=== FILE: dataframe.dfy ===
/**
 * A materialized data frame: its column names in order, its index (one label
 * per row) and its rows, each row holding one cell per column.
 */
module Frames {
  import opened Wrappers
  import opened Values
  import opened Seqs

  datatype Frame = Frame(columnNames: seq<string>, index: seq<Value>, rows: seq<seq<Value>>) {
    /** Column names are distinct, the index has one label per row and every row one cell per column. */
    predicate Valid() {
      && Distinct(columnNames)
      && |index| == |rows|
      && RowsFit(columnNames, rows)
    }

    /** `count()`: the number of rows. */
    function Count(): nat {
      |rows|
    }
  }

  /** The canonical empty frame: no columns, an empty index, no rows. */
  const EmptyFrame := Frame([], [], [])

  /** The default index 0 .. n-1 given to a frame built without one. */
  function DefaultIndex(n: nat): (labels: seq<Value>)
    ensures |labels| == n && forall i | 0 <= i < n :: labels[i] == Num(i)
  {
    seq(n, i requires 0 <= i < n => Num(i))
  }

  /** The cells of column `j`, in row order. */
  function Column(f: Frame, j: nat): (cells: seq<Value>)
    requires f.Valid() && j < |f.columnNames|
    ensures |cells| == f.Count() && forall i {:trigger cells[i]} | 0 <= i < f.Count() :: cells[i] == f.rows[i][j]
  {
    seq(|f.rows|, i requires 0 <= i < |f.rows| => f.rows[i][j])
  }

  predicate RowsFit(columnNames: seq<string>, rows: seq<seq<Value>>) {
    forall i | 0 <= i < |rows| :: |rows[i]| == |columnNames|
  }

  /**
   * `new DataFrame({ index, columnNames, rows })`.  Every row must have one cell
   * per column and an explicit index one label per row (ShapeMismatch
   * otherwise); column names must be distinct.  Without an index the default
   * index 0 .. n-1 is used; with nothing at all this is the empty frame.
   */
  function MakeFrame(index: Option<seq<Value>>, columnNames: seq<string>, rows: seq<seq<Value>>): (r: Result<Frame, Error>)
    ensures r.Ok? <==> Distinct(columnNames) && RowsFit(columnNames, rows) && (index.Some? ==> |index.value| == |rows|)
    ensures r.Err? ==> (r.error == DuplicateColumnName <==> !Distinct(columnNames))
    ensures r.Ok? ==> r.value.Valid()
    ensures r.Ok? ==> r.value.columnNames == columnNames && r.value.rows == rows
    ensures r.Ok? ==> r.value.index == if index.Some? then index.value else DefaultIndex(|rows|)
  {
    if !Distinct(columnNames) then Err(DuplicateColumnName)
    else if !RowsFit(columnNames, rows) then Err(ShapeMismatch)
    else
      var labels := index.GetOr(DefaultIndex(|rows|));
      if |labels| != |rows| then Err(ShapeMismatch)
      else Ok(Frame(columnNames, labels, rows))
  }

  /** `new DataFrame()` is the canonical empty frame, whose count is 0. */
  lemma MakeEmptyFrame()
    ensures MakeFrame(None, [], []) == Ok(EmptyFrame)
    ensures EmptyFrame.Valid() && EmptyFrame.Count() == 0
  {
  }
}

=== FILE: iso8601.dfy ===
/**
 * Temporal values and their ISO-8601 transport form.
 *
 * A temporal value is an instant, kept as its UTC calendar fields.  The
 * transport form is the fixed-width string "YYYY-MM-DDTHH:mm:ss.sssZ" that
 * `toISOString` produces for years 0 through 9999.  Formatting and parsing are
 * proved to be inverse to each other in both directions.
 */
module Iso8601 {
  import opened Wrappers

  datatype Temporal = Temporal(year: int, month: int, day: int, hour: int, minute: int, second: int, milli: int) {
    /** The fields name an existing instant of the proleptic Gregorian calendar. */
    predicate Valid() {
      && 0 <= year <= 9999
      && 1 <= month <= 12
      && 1 <= day <= DaysInMonth(year, month)
      && 0 <= hour < 24
      && 0 <= minute < 60
      && 0 <= second < 60
      && 0 <= milli < 1000
    }
  }

  /** An instant; two instants are equal exactly when their UTC fields are. */
  type Instant = t: Temporal | t.Valid() witness Temporal(1970, 1, 1, 0, 0, 0, 0)

  predicate IsLeapYear(y: int) {
    y % 4 == 0 && (y % 100 != 0 || y % 400 == 0)
  }

  function DaysInMonth(y: int, m: int): int {
    if m == 2 then (if IsLeapYear(y) then 29 else 28)
    else if m == 4 || m == 6 || m == 9 || m == 11 then 30
    else 31
  }

  function Pow10(w: nat): (p: nat)
    ensures p >= 1
  {
    if w == 0 then 1 else 10 * Pow10(w - 1)
  }

  predicate IsDigit(c: char) {
    '0' <= c <= '9'
  }

  predicate AllDigits(s: string) {
    forall i | 0 <= i < |s| :: IsDigit(s[i])
  }

  function DigitChar(d: nat): (c: char)
    requires d < 10
    ensures IsDigit(c) && c as int - '0' as int == d
  {
    ('0' as int + d) as char
  }

  function DigitValue(c: char): (d: nat)
    requires IsDigit(c)
    ensures d < 10
  {
    c as int - '0' as int
  }

  /** `n` written in decimal with exactly `width` digits, zero-padded on the left. */
  function Digits(n: nat, width: nat): (s: string)
    requires n < Pow10(width)
    ensures |s| == width && AllDigits(s)
  {
    if width == 0 then "" else Digits(n / 10, width - 1) + [DigitChar(n % 10)]
  }

  /** The number a string of decimal digits denotes. */
  function ParseDigits(s: string): (n: nat)
    requires AllDigits(s)
    ensures n < Pow10(|s|)
  {
    if s == [] then 0 else ParseDigits(s[..|s| - 1]) * 10 + DigitValue(s[|s| - 1])
  }

  lemma {:induction false} ParseDigitsOfDigits(n: nat, width: nat)
    requires n < Pow10(width)
    ensures ParseDigits(Digits(n, width)) == n
  {
    if width > 0 {
      var s := Digits(n, width);
      assert s[..|s| - 1] == Digits(n / 10, width - 1);
      ParseDigitsOfDigits(n / 10, width - 1);
    }
  }

  lemma {:induction false} DigitsOfParseDigits(s: string)
    requires AllDigits(s)
    ensures Digits(ParseDigits(s), |s|) == s
  {
    if s != [] {
      var init := s[..|s| - 1];
      DigitsOfParseDigits(init);
      var n := ParseDigits(s);
      assert n / 10 == ParseDigits(init) && n % 10 == DigitValue(s[|s| - 1]);
      assert s == init + [s[|s| - 1]];
    }
  }

  /** Glues the seven fixed-width fields together with the ISO-8601 separators. */
  function Layout(y: string, mo: string, d: string, h: string, mi: string, se: string, ms: string): string {
    y + "-" + mo + "-" + d + "T" + h + ":" + mi + ":" + se + "." + ms + "Z"
  }

  /** The separators sit at their fixed positions of a 24-character string. */
  predicate HasSeparators(s: string) {
    && |s| == 24
    && s[4] == '-' && s[7] == '-' && s[10] == 'T'
    && s[13] == ':' && s[16] == ':' && s[19] == '.' && s[23] == 'Z'
  }

  lemma LayoutFields(y: string, mo: string, d: string, h: string, mi: string, se: string, ms: string)
    requires |y| == 4 && |mo| == 2 && |d| == 2 && |h| == 2 && |mi| == 2 && |se| == 2 && |ms| == 3
    ensures var s := Layout(y, mo, d, h, mi, se, ms);
      && HasSeparators(s)
      && s[0..4] == y && s[5..7] == mo && s[8..10] == d && s[11..13] == h
      && s[14..16] == mi && s[17..19] == se && s[20..23] == ms
  {
    var s := Layout(y, mo, d, h, mi, se, ms);
    assert |s| == 24;
    assert s[0..4] == y by { forall k | 0 <= k < 4 ensures s[0..4][k] == y[k] { assert s[k] == y[k]; } }
    assert s[5..7] == mo by { forall k | 0 <= k < 2 ensures s[5..7][k] == mo[k] { assert s[5 + k] == mo[k]; } }
    assert s[8..10] == d by { forall k | 0 <= k < 2 ensures s[8..10][k] == d[k] { assert s[8 + k] == d[k]; } }
    assert s[11..13] == h by { forall k | 0 <= k < 2 ensures s[11..13][k] == h[k] { assert s[11 + k] == h[k]; } }
    assert s[14..16] == mi by { forall k | 0 <= k < 2 ensures s[14..16][k] == mi[k] { assert s[14 + k] == mi[k]; } }
    assert s[17..19] == se by { forall k | 0 <= k < 2 ensures s[17..19][k] == se[k] { assert s[17 + k] == se[k]; } }
    assert s[20..23] == ms by { forall k | 0 <= k < 3 ensures s[20..23][k] == ms[k] { assert s[20 + k] == ms[k]; } }
  }

  lemma LayoutOfFields(s: string)
    requires HasSeparators(s)
    ensures s == Layout(s[0..4], s[5..7], s[8..10], s[11..13], s[14..16], s[17..19], s[20..23])
  {
    var l := Layout(s[0..4], s[5..7], s[8..10], s[11..13], s[14..16], s[17..19], s[20..23]);
    LayoutFields(s[0..4], s[5..7], s[8..10], s[11..13], s[14..16], s[17..19], s[20..23]);
    forall i | 0 <= i < 24
      ensures l[i] == s[i]
    {
      if i < 4 { assert l[i] == l[0..4][i]; }
      else if 4 < i < 7 { assert l[i] == l[5..7][i - 5]; }
      else if 7 < i < 10 { assert l[i] == l[8..10][i - 8]; }
      else if 10 < i < 13 { assert l[i] == l[11..13][i - 11]; }
      else if 13 < i < 16 { assert l[i] == l[14..16][i - 14]; }
      else if 16 < i < 19 { assert l[i] == l[17..19][i - 17]; }
      else if 19 < i < 23 { assert l[i] == l[20..23][i - 20]; }
    }
  }

  /** The ISO-8601 form of an instant, as `toISOString` writes it. */
  function ToIso(t: Instant): (s: string)
    ensures HasSeparators(s)
  {
    LayoutFields(Digits(t.year, 4), Digits(t.month, 2), Digits(t.day, 2), Digits(t.hour, 2),
                 Digits(t.minute, 2), Digits(t.second, 2), Digits(t.milli, 3));
    Layout(Digits(t.year, 4), Digits(t.month, 2), Digits(t.day, 2), Digits(t.hour, 2),
           Digits(t.minute, 2), Digits(t.second, 2), Digits(t.milli, 3))
  }

  /** The fields of a string that has the ISO-8601 shape, read as numbers. */
  predicate HasIsoShape(s: string) {
    && HasSeparators(s)
    && AllDigits(s[0..4]) && AllDigits(s[5..7]) && AllDigits(s[8..10]) && AllDigits(s[11..13])
    && AllDigits(s[14..16]) && AllDigits(s[17..19]) && AllDigits(s[20..23])
  }

  /**
   * Parses the ISO-8601 form back to an instant.  Anything that is not that
   * form, or whose fields name no instant (a 30th of February, hour 24), is
   * rejected with None.
   */
  function ParseIso(s: string): (r: Option<Instant>)
    ensures r.Some? ==> HasIsoShape(s)
  {
    if !HasIsoShape(s) then None
    else
      var t := Temporal(ParseDigits(s[0..4]), ParseDigits(s[5..7]), ParseDigits(s[8..10]),
                        ParseDigits(s[11..13]), ParseDigits(s[14..16]), ParseDigits(s[17..19]),
                        ParseDigits(s[20..23]));
      if t.Valid() then Some(t) else None
  }

  /** Parsing what was formatted gives back the same instant. */
  lemma IsoRoundTrip(t: Instant)
    ensures ParseIso(ToIso(t)) == Some(t)
  {
    var y, mo, d, h, mi, se, ms :=
      Digits(t.year, 4), Digits(t.month, 2), Digits(t.day, 2), Digits(t.hour, 2),
      Digits(t.minute, 2), Digits(t.second, 2), Digits(t.milli, 3);
    LayoutFields(y, mo, d, h, mi, se, ms);
    ParseDigitsOfDigits(t.year, 4);
    ParseDigitsOfDigits(t.month, 2);
    ParseDigitsOfDigits(t.day, 2);
    ParseDigitsOfDigits(t.hour, 2);
    ParseDigitsOfDigits(t.minute, 2);
    ParseDigitsOfDigits(t.second, 2);
    ParseDigitsOfDigits(t.milli, 3);
  }

  /** Every string the parser accepts is the canonical form of what it parsed to. */
  lemma IsoCanonical(s: string)
    requires ParseIso(s).Some?
    ensures ToIso(ParseIso(s).value) == s
  {
    var t := ParseIso(s).value;
    assert t.year == ParseDigits(s[0..4]) && t.month == ParseDigits(s[5..7]) && t.day == ParseDigits(s[8..10]);
    assert t.hour == ParseDigits(s[11..13]) && t.minute == ParseDigits(s[14..16]);
    assert t.second == ParseDigits(s[17..19]) && t.milli == ParseDigits(s[20..23]);
    LayoutOfFields(s);
    DigitsOfParseDigits(s[0..4]);
    DigitsOfParseDigits(s[5..7]);
    DigitsOfParseDigits(s[8..10]);
    DigitsOfParseDigits(s[11..13]);
    DigitsOfParseDigits(s[14..16]);
    DigitsOfParseDigits(s[17..19]);
    DigitsOfParseDigits(s[20..23]);
  }

  /** Formatting is injective: distinct instants have distinct ISO strings. */
  lemma ToIsoInjective(t1: Instant, t2: Instant)
    requires ToIso(t1) == ToIso(t2)
    ensures t1 == t2
  {
    IsoRoundTrip(t1);
    IsoRoundTrip(t2);
  }
}

=== FILE: seqs.dfy ===
/** Facts about sequences that the merge and the codec both rely on. */
module Seqs {

  predicate Distinct<T(==)>(s: seq<T>) {
    forall i, j | 0 <= i < j < |s| :: s[i] != s[j]
  }

  /** `a` is `b` with some elements left out, the rest kept in order. */
  predicate IsSubsequence<T(==)>(a: seq<T>, b: seq<T>) {
    if a == [] then true
    else if b == [] then false
    else if a[0] == b[0] then IsSubsequence(a[1..], b[1..])
    else IsSubsequence(a, b[1..])
  }

  lemma DistinctTail<T>(s: seq<T>)
    requires s != [] && Distinct(s)
    ensures Distinct(s[1..]) && s[0] !in s[1..]
  {
    forall a, b | 0 <= a < b < |s| - 1 ensures s[1..][a] != s[1..][b] {
      assert s[a + 1] != s[b + 1];
    }
    forall j | 0 <= j < |s| - 1 ensures s[1..][j] != s[0] {
      assert s[j + 1] != s[0];
    }
  }

  lemma SubsequenceCons<T>(a: seq<T>, b: seq<T>)
    requires a != [] && b != [] && IsSubsequence(a, b[1..])
    ensures IsSubsequence(a, b)
  {
    if a[0] == b[0] {
      SubsequenceTail(a, b[1..]);
    }
  }

  lemma {:induction false} SubsequenceTail<T>(a: seq<T>, b: seq<T>)
    requires a != [] && IsSubsequence(a, b)
    ensures IsSubsequence(a[1..], b)
  {
    if a[0] == b[0] {
      if a[1..] != [] {
        SubsequenceCons(a[1..], b);
      }
    } else {
      SubsequenceTail(a, b[1..]);
      if a[1..] != [] {
        SubsequenceCons(a[1..], b);
      }
    }
  }

  lemma {:induction false} SubsequenceLength<T>(a: seq<T>, b: seq<T>)
    requires IsSubsequence(a, b)
    ensures |a| <= |b|
  {
    if a != [] {
      if a[0] == b[0] {
        SubsequenceLength(a[1..], b[1..]);
      } else {
        SubsequenceLength(a, b[1..]);
      }
    }
  }

  function Elems<T>(s: seq<T>): set<T> {
    set x | x in s
  }

  lemma {:induction false} ElemsCard<T>(s: seq<T>)
    ensures |Elems(s)| <= |s|
    ensures Distinct(s) ==> |Elems(s)| == |s|
  {
    if s != [] {
      ElemsCard(s[1..]);
      assert Elems(s) == {s[0]} + Elems(s[1..]);
      if Distinct(s) {
        DistinctTail(s);
      }
    }
  }

  /** A distinct sequence drawn from the elements of `t` is no longer than `t`. */
  lemma DistinctWithin<T>(s: seq<T>, t: seq<T>)
    requires Distinct(s) && Elems(s) <= Elems(t)
    ensures |s| <= |t|
  {
    ElemsCard(s);
    ElemsCard(t);
    assert |Elems(s)| <= |Elems(t)| by {
      SubsetCard(Elems(s), Elems(t));
    }
  }

  lemma {:induction false} SubsetCard<T>(a: set<T>, b: set<T>)
    requires a <= b
    ensures |a| <= |b|
    decreases |a|
  {
    if a != {} {
      var x :| x in a;
      SubsetCard(a - {x}, b - {x});
    }
  }
}

=== FILE: serialize.dfy ===
/**
 * The transport form of a frame and the codec between the two.
 *
 * The transport form is the record
 *   { columnOrder: [name, ...],
 *     columns: { name: tag },
 *     index: { type: tag, values: [label, ...] },
 *     values: [ { name: cell, ... }, ... ] }
 * in which instants travel as ISO-8601 strings.  Every field is optional on
 * the way in, so that `{}` can be deserialized; `Serialize` fills all of them.
 */
module Codec {
  import opened Wrappers
  import opened Iso8601
  import opened Values
  import opened Seqs
  import opened Frames

  /** One row of `values`: column name to cell.  A name without an entry reads as undefined. */
  type Record = map<string, Value>

  datatype SerializedIndex = SerializedIndex(kind: string, values: seq<Value>)

  datatype SerializedFrame = SerializedFrame(
    columnOrder: Option<seq<string>>,
    columns: Option<map<string, string>>,
    index: Option<SerializedIndex>,
    values: Option<seq<Record>>)

  /** The canonical empty form, the serialization of every frame without columns. */
  const EmptyForm := SerializedFrame(Some([]), Some(map[]), Some(SerializedIndex("empty", [])), Some([]))

  /** The map that sends `keys[j]` to `vals[j]`. */
  function ZipMap<V>(keys: seq<string>, vals: seq<V>): (m: map<string, V>)
    requires |keys| == |vals|
    ensures m.Keys == Elems(keys)
    ensures Distinct(keys) ==> forall j | 0 <= j < |keys| :: m[keys[j]] == vals[j]
  {
    if keys == [] then map[]
    else
      var n := |keys| - 1;
      var m := ZipMap(keys[..n], vals[..n]);
      assert Elems(keys) == Elems(keys[..n]) + {keys[n]} by {
        assert keys == keys[..n] + [keys[n]];
      }
      assert Distinct(keys) ==> Distinct(keys[..n]) && keys[n] !in keys[..n];
      m[keys[n] := vals[n]]
  }

  // ---------------------------------------------------------------------------
  // Serialization
  // ---------------------------------------------------------------------------

  /** A cell as transported under its column's kind: the instants of a "date" column become ISO strings. */
  function EncodeCell(k: Kind, v: Value): (w: Value)
    ensures k != DateKind || !v.Date? ==> w == v
    ensures k == DateKind && v.Date? ==> w == Str(ToIso(v.t))
  {
    if k == DateKind && v.Date? then Str(ToIso(v.t)) else v
  }

  function EncodeCells(k: Kind, cells: seq<Value>): (out: seq<Value>)
    ensures |out| == |cells| && forall i | 0 <= i < |cells| :: out[i] == EncodeCell(k, cells[i])
  {
    seq(|cells|, i requires 0 <= i < |cells| => EncodeCell(k, cells[i]))
  }

  function EncodeRow(kinds: seq<Kind>, row: seq<Value>): (out: seq<Value>)
    requires |kinds| == |row|
    ensures |out| == |row| && forall j | 0 <= j < |row| :: out[j] == EncodeCell(kinds[j], row[j])
  {
    seq(|row|, j requires 0 <= j < |row| => EncodeCell(kinds[j], row[j]))
  }

  /** The inferred kind of every column, in column order. */
  function ColumnKinds(f: Frame): (kinds: seq<Kind>)
    requires f.Valid()
    ensures |kinds| == |f.columnNames|
    ensures forall j | 0 <= j < |kinds| :: kinds[j] == InferKind(Column(f, j))
  {
    seq(|f.columnNames|, j requires 0 <= j < |f.columnNames| => InferKind(Column(f, j)))
  }

  function TagNames(kinds: seq<Kind>): (tags: seq<string>)
    ensures |tags| == |kinds| && forall j | 0 <= j < |kinds| :: tags[j] == kinds[j].Name()
  {
    seq(|kinds|, j requires 0 <= j < |kinds| => kinds[j].Name())
  }

  /** The `columns` section: each column name tagged with its column's inferred kind. */
  function TagMap(f: Frame): (tags: map<string, string>)
    requires f.Valid()
    ensures tags.Keys == Elems(f.columnNames)
    ensures forall j | 0 <= j < |f.columnNames| :: tags[f.columnNames[j]] == InferKind(Column(f, j)).Name()
  {
    ZipMap(f.columnNames, TagNames(ColumnKinds(f)))
  }

  /** The `index` section: the index's inferred kind and its transported labels. */
  function IndexSection(index: seq<Value>): (si: SerializedIndex)
    ensures si.kind == InferKind(index).Name()
    ensures |si.values| == |index|
    ensures forall i | 0 <= i < |index| :: si.values[i] == EncodeCell(InferKind(index), index[i])
  {
    var k := InferKind(index);
    SerializedIndex(k.Name(), EncodeCells(k, index))
  }

  /** The `values` section: one record per row, sending each column name to the row's transported cell. */
  function Records(f: Frame): (recs: seq<Record>)
    requires f.Valid()
    ensures |recs| == f.Count()
    ensures forall i | 0 <= i < f.Count() :: recs[i].Keys == Elems(f.columnNames)
    ensures forall i, j | 0 <= i < f.Count() && 0 <= j < |f.columnNames| ::
      f.columnNames[j] in recs[i] && recs[i][f.columnNames[j]] == EncodeCell(InferKind(Column(f, j)), f.rows[i][j])
  {
    var kinds := ColumnKinds(f);
    seq(|f.rows|, i requires 0 <= i < |f.rows| => ZipMap(f.columnNames, EncodeRow(kinds, f.rows[i])))
  }

  /** `df.serialize()`: the canonical empty form for a frame without columns, its four sections otherwise. */
  function Serialize(f: Frame): (s: SerializedFrame)
    requires f.Valid()
    ensures s.columnOrder.Some? && s.columns.Some? && s.index.Some? && s.values.Some?
  {
    if |f.columnNames| == 0 then EmptyForm
    else SerializedFrame(Some(f.columnNames), Some(TagMap(f)), Some(IndexSection(f.index)), Some(Records(f)))
  }

  // ---------------------------------------------------------------------------
  // Deserialization
  // ---------------------------------------------------------------------------

  /** Applies `g` to every element, failing with the first error `g` reports. */
  function MapAll<X, Y>(xs: seq<X>, g: X -> Result<Y, Error>): (r: Result<seq<Y>, Error>)
    ensures r.Ok? <==> forall i | 0 <= i < |xs| :: g(xs[i]).Ok?
    ensures r.Ok? ==> |r.value| == |xs| && forall i | 0 <= i < |xs| :: g(xs[i]) == Ok(r.value[i])
  {
    if xs == [] then Ok([])
    else
      var y :- g(xs[0]);
      var ys :- MapAll(xs[1..], g);
      assert forall i | 1 <= i < |xs| :: xs[i] == xs[1..][i - 1];
      Ok([y] + ys)
  }

  /** A transported cell of a "date" column: an ISO string is parsed back to its instant. */
  function DecodeDate(v: Value): (r: Result<Value, Error>)
    ensures r.Ok? <==> v.Missing? || (v.Str? && ParseIso(v.s).Some?)
    ensures r.Ok? && v.Str? ==> r.value == Date(ParseIso(v.s).value)
    ensures r.Ok? && v.Missing? ==> r.value == Missing
    ensures r.Err? ==> r.error == InvalidSerializedInput
  {
    match v
    case Missing => Ok(Missing)
    case Str(s) => (match ParseIso(s) case Some(t) => Ok(Date(t)) case None => Err(InvalidSerializedInput))
    case _ => Err(InvalidSerializedInput)
  }

  /** The labels of the index section: parsed for "date", none for "empty", verbatim otherwise. */
  function DecodeIndex(si: SerializedIndex): (r: Result<seq<Value>, Error>)
    ensures si.kind == "date" ==>
      && (r.Ok? <==> forall i | 0 <= i < |si.values| :: DecodeDate(si.values[i]).Ok?)
      && (r.Ok? ==> |r.value| == |si.values| && forall i | 0 <= i < |si.values| :: DecodeDate(si.values[i]) == Ok(r.value[i]))
    ensures si.kind == "empty" ==> r == Ok([])
    ensures si.kind != "date" && si.kind != "empty" ==> r == Ok(si.values)
  {
    if si.kind == "date" then MapAll(si.values, DecodeDate)
    else if si.kind == "empty" then Ok([])
    else Ok(si.values)
  }

  /** The cell of column `name` in record `rec`, decoded when the column is tagged "date". */
  function DecodeCell(tags: map<string, string>, rec: Record, name: string): (r: Result<Value, Error>)
    ensures !(name in tags && tags[name] == "date") ==> r == Ok(if name in rec then rec[name] else Missing)
    ensures r.Err? ==> name in tags && tags[name] == "date" && r.error == InvalidSerializedInput
    ensures r.Ok? && name in tags && tags[name] == "date" ==> r.value.Missing? || r.value.Date?
  {
    var cell := if name in rec then rec[name] else Missing;
    if name in tags && tags[name] == "date" then DecodeDate(cell) else Ok(cell)
  }

  function DecodeRow(names: seq<string>, tags: map<string, string>, rec: Record): (r: Result<seq<Value>, Error>)
    ensures r.Ok? <==> forall j | 0 <= j < |names| :: DecodeCell(tags, rec, names[j]).Ok?
    ensures r.Ok? ==> |r.value| == |names| && forall j | 0 <= j < |names| :: DecodeCell(tags, rec, names[j]) == Ok(r.value[j])
  {
    MapAll(names, name => DecodeCell(tags, rec, name))
  }

  /** The rows of the `values` section, each record read in column order. */
  function DecodeRecords(names: seq<string>, tags: map<string, string>, records: seq<Record>): (r: Result<seq<seq<Value>>, Error>)
    ensures r.Ok? <==> forall i, j | 0 <= i < |records| && 0 <= j < |names| :: DecodeCell(tags, records[i], names[j]).Ok?
    ensures r.Ok? ==> |r.value| == |records| && forall i | 0 <= i < |records| :: |r.value[i]| == |names|
    ensures r.Ok? ==> forall i, j | 0 <= i < |records| && 0 <= j < |names| :: DecodeCell(tags, records[i], names[j]) == Ok(r.value[i][j])
  {
    var r := MapAll(records, rec => DecodeRow(names, tags, rec));
    assert r.Ok? <==> forall i | 0 <= i < |records| :: DecodeRow(names, tags, records[i]).Ok?;
    r
  }

  /**
   * `DataFrame.deserialize(input)`.  An absent input, or one without an index
   * section, gives the empty frame.  Otherwise the index and one row per record
   * are decoded, the row reading its cells in `columnOrder`.  It fails when the
   * index does not have one label per record (ShapeMismatch), when
   * `columnOrder` repeats a name (DuplicateColumnName), and when a "date" label
   * or cell is not an ISO string (InvalidSerializedInput).
   */
  function Deserialize(input: Option<SerializedFrame>): (r: Result<Frame, Error>)
    ensures input.None? ==> r == Ok(EmptyFrame)
    ensures input.Some? && input.value.index.None? ==> r == Ok(EmptyFrame)
    ensures r.Ok? ==> r.value.Valid()
  {
    if input.None? || input.value.index.None? then Ok(EmptyFrame)
    else
      var s := input.value;
      var names := s.columnOrder.GetOr([]);
      var tags := s.columns.GetOr(map[]);
      var records := s.values.GetOr([]);
      var labels :- DecodeIndex(s.index.value);
      if !Distinct(names) then Err(DuplicateColumnName)
      else if |labels| != |records| then Err(ShapeMismatch)
      else
        var rows :- DecodeRecords(names, tags, records);
        Ok(Frame(names, labels, rows))
  }
}

=== FILE: series.dfy ===
/**
 * A series and its label-aligned merge.
 *
 * A series is its sequence of (label, value) pairs in index order; a value of
 * None is JavaScript's `undefined`.  `Merge(s1, s2, f)` is a strict inner join
 * on labels, walked in `s1`'s order: a label is kept only when both series have
 * a defined value for it, and then it carries `f(a, b)`.  A label that occurs
 * more than once in a series counts once, with the value at its first
 * occurrence.
 */
module SeriesMerge {
  import opened Wrappers
  import opened Values
  import opened Seqs

  datatype Series<L, V> = Series(pairs: seq<(L, Option<V>)>)

  /** `new Series()`: no pairs. */
  function Empty<L, V>(): (s: Series<L, V>)
    ensures |s.pairs| == 0
  {
    Series([])
  }

  /** `new Series(values)`: the default index 0 .. n-1. */
  function FromValues<V>(values: seq<Option<V>>): (s: Series<int, V>)
    ensures |s.pairs| == |values|
    ensures forall i | 0 <= i < |values| :: s.pairs[i] == (i, values[i])
  {
    Series(seq(|values|, i requires 0 <= i < |values| => (i, values[i])))
  }

  /** `new Series({ index, values })`: label and value paired by position; both must have one entry per row. */
  function FromIndexed<L, V>(index: seq<L>, values: seq<Option<V>>): (r: Result<Series<L, V>, Error>)
    ensures r.Ok? <==> |index| == |values|
    ensures r.Err? ==> r.error == ShapeMismatch
    ensures r.Ok? ==> Labels(r.value.pairs) == index
    ensures r.Ok? ==> forall i | 0 <= i < |values| :: r.value.pairs[i].1 == values[i]
  {
    if |index| != |values| then Err(ShapeMismatch)
    else Ok(Series(seq(|index|, i requires 0 <= i < |index| => (index[i], values[i]))))
  }

  /** The labels of a pair sequence, in order. */
  function Labels<L, V>(p: seq<(L, V)>): (r: seq<L>)
    ensures |r| == |p| && forall i | 0 <= i < |p| :: r[i] == p[i].0
  {
    if p == [] then [] else [p[0].0] + Labels(p[1..])
  }

  /** The defined value at label `l`'s first occurrence; None when `l` is absent or its value undefined. */
  function ValueAt<L(==), V>(p: seq<(L, Option<V>)>, l: L): (r: Option<V>)
    ensures r.Some? ==> l in Labels(p)
  {
    if p == [] then None else if p[0].0 == l then p[0].1 else ValueAt(p[1..], l)
  }

  /** In a series with distinct labels, the value at a label is the one paired with it. */
  lemma {:induction false} ValueAtDistinct<L, V>(p: seq<(L, Option<V>)>, i: nat)
    requires i < |p| && Distinct(Labels(p))
    ensures ValueAt(p, p[i].0) == p[i].1
  {
    if i > 0 {
      assert Labels(p)[0] != Labels(p)[i];
      DistinctTail(Labels(p));
      assert Labels(p)[1..] == Labels(p[1..]);
      ValueAtDistinct(p[1..], i - 1);
    }
  }

  /**
   * The merge walk: `seen` holds the labels of the part of the first series
   * already walked, so that only a label's first occurrence is considered.
   */
  function MergeFrom<L(==), A, B, C>(p1: seq<(L, Option<A>)>, p2: seq<(L, Option<B>)>, f: (A, B) -> C, seen: set<L>)
    : seq<(L, Option<C>)>
  {
    if p1 == [] then []
    else
      var l := p1[0].0;
      var rest := MergeFrom(p1[1..], p2, f, seen + {l});
      var b := ValueAt(p2, l);
      if l !in seen && p1[0].1.Some? && b.Some? then [(l, Some(f(p1[0].1.value, b.value)))] + rest
      else rest
  }

  /** `s1.merge(s2, f)`. */
  function Merge<L(==), A, B, C>(s1: Series<L, A>, s2: Series<L, B>, f: (A, B) -> C): (r: Series<L, C>)
    ensures forall l | l in Labels(r.pairs) :: ValueAt(s1.pairs, l).Some? && ValueAt(s2.pairs, l).Some?
    ensures forall l | l in Labels(s1.pairs) && ValueAt(s1.pairs, l).Some? && ValueAt(s2.pairs, l).Some? :: l in Labels(r.pairs)
  {
    var pairs := MergeFrom(s1.pairs, s2.pairs, f, {});
    assert forall l | l in Labels(pairs) + Labels(s1.pairs) :: l in Labels(pairs) <==> ValueAt(s1.pairs, l).Some? && ValueAt(s2.pairs, l).Some? by {
      forall l | l in Labels(pairs) + Labels(s1.pairs) ensures l in Labels(pairs) <==> ValueAt(s1.pairs, l).Some? && ValueAt(s2.pairs, l).Some? {
        MergeFromLabels(s1.pairs, s2.pairs, f, {}, l);
      }
    }
    Series(pairs)
  }

  // ---------------------------------------------------------------------------
  // Properties of the walk
  // ---------------------------------------------------------------------------

  lemma {:induction false} MergeFromLabels<L, A, B, C>(p1: seq<(L, Option<A>)>, p2: seq<(L, Option<B>)>, f: (A, B) -> C, seen: set<L>, l: L)
    ensures l in Labels(MergeFrom(p1, p2, f, seen)) <==> l !in seen && ValueAt(p1, l).Some? && ValueAt(p2, l).Some?
  {
    if p1 != [] {
      var l0 := p1[0].0;
      MergeFromLabels(p1[1..], p2, f, seen + {l0}, l);
      var rest := MergeFrom(p1[1..], p2, f, seen + {l0});
      var r := MergeFrom(p1, p2, f, seen);
      if l0 !in seen && p1[0].1.Some? && ValueAt(p2, l0).Some? {
        assert Labels(r) == [l0] + Labels(rest);
      }
    }
  }

  /** The pair `(l, v)` is `l` with `f` applied to the defined values both series have at `l`. */
  ghost predicate PairCombines<L, A, B, C>(p1: seq<(L, Option<A>)>, p2: seq<(L, Option<B>)>, f: (A, B) -> C, pair: (L, Option<C>)) {
    var a, b := ValueAt(p1, pair.0), ValueAt(p2, pair.0);
    a.Some? && b.Some? && pair.1 == Some(f(a.value, b.value))
  }

  /** A pair that combines the values of the rest of the first series at another label combines those of the whole. */
  lemma PairCombinesTail<L, A, B, C>(p1: seq<(L, Option<A>)>, p2: seq<(L, Option<B>)>, f: (A, B) -> C, pair: (L, Option<C>))
    requires p1 != [] && pair.0 != p1[0].0 && PairCombines(p1[1..], p2, f, pair)
    ensures PairCombines(p1, p2, f, pair)
  {
    assert ValueAt(p1, pair.0) == ValueAt(p1[1..], pair.0);
  }

  lemma {:induction false} MergeFromPairs<L, A, B, C>(p1: seq<(L, Option<A>)>, p2: seq<(L, Option<B>)>, f: (A, B) -> C, seen: set<L>)
    ensures forall k | 0 <= k < |MergeFrom(p1, p2, f, seen)| ::
      PairCombines(p1, p2, f, MergeFrom(p1, p2, f, seen)[k])
  {
    if p1 != [] {
      var l0 := p1[0].0;
      MergeFromPairs(p1[1..], p2, f, seen + {l0});
      var rest := MergeFrom(p1[1..], p2, f, seen + {l0});
      forall k | 0 <= k < |rest|
        ensures PairCombines(p1, p2, f, rest[k])
      {
        MergeFromLabels(p1[1..], p2, f, seen + {l0}, rest[k].0);
        assert rest[k].0 == Labels(rest)[k];
        PairCombinesTail(p1, p2, f, rest[k]);
      }
    }
  }

  lemma {:induction false} MergeFromDistinct<L, A, B, C>(p1: seq<(L, Option<A>)>, p2: seq<(L, Option<B>)>, f: (A, B) -> C, seen: set<L>)
    ensures Distinct(Labels(MergeFrom(p1, p2, f, seen)))
  {
    if p1 != [] {
      var l0 := p1[0].0;
      MergeFromDistinct(p1[1..], p2, f, seen + {l0});
      MergeFromLabels(p1[1..], p2, f, seen + {l0}, l0);
    }
  }

  lemma {:induction false} MergeFromOrder<L, A, B, C>(p1: seq<(L, Option<A>)>, p2: seq<(L, Option<B>)>, f: (A, B) -> C, seen: set<L>)
    ensures IsSubsequence(Labels(MergeFrom(p1, p2, f, seen)), Labels(p1))
  {
    if p1 != [] {
      var l0 := p1[0].0;
      MergeFromOrder(p1[1..], p2, f, seen + {l0});
      var rest := MergeFrom(p1[1..], p2, f, seen + {l0});
      var r := MergeFrom(p1, p2, f, seen);
      assert Labels(p1)[1..] == Labels(p1[1..]);
      if l0 !in seen && p1[0].1.Some? && ValueAt(p2, l0).Some? {
        assert Labels(r)[1..] == Labels(rest);
      } else if Labels(r) != [] {
        SubsequenceCons(Labels(r), Labels(p1));
      }
    }
  }

  // ---------------------------------------------------------------------------
  // The merge contract
  // ---------------------------------------------------------------------------

  /** A label is in the merged series exactly when both series have a defined value for it. */
  lemma MergeKeepsCommonDefined<L, A, B, C>(s1: Series<L, A>, s2: Series<L, B>, f: (A, B) -> C, l: L)
    ensures l in Labels(Merge(s1, s2, f).pairs) <==> ValueAt(s1.pairs, l).Some? && ValueAt(s2.pairs, l).Some?
  {
    MergeFromLabels(s1.pairs, s2.pairs, f, {}, l);
  }

  /** Each merged pair carries `f` applied to the two defined values at its label. */
  lemma MergeCombines<L, A, B, C>(s1: Series<L, A>, s2: Series<L, B>, f: (A, B) -> C, k: nat)
    requires k < |Merge(s1, s2, f).pairs|
    ensures var l := Merge(s1, s2, f).pairs[k].0;
      ValueAt(s1.pairs, l).Some? && ValueAt(s2.pairs, l).Some? &&
      Merge(s1, s2, f).pairs[k].1 == Some(f(ValueAt(s1.pairs, l).value, ValueAt(s2.pairs, l).value))
  {
    var r := MergeFrom(s1.pairs, s2.pairs, f, {});
    MergeFromPairs(s1.pairs, s2.pairs, f, {});
    assert ValueAt(s1.pairs, r[k].0).Some? && ValueAt(s2.pairs, r[k].0).Some? &&
        r[k].1 == Some(f(ValueAt(s1.pairs, r[k].0).value, ValueAt(s2.pairs, r[k].0).value));
  }

  /** The merged labels are distinct and appear in the first series' order. */
  lemma MergeOrder<L, A, B, C>(s1: Series<L, A>, s2: Series<L, B>, f: (A, B) -> C)
    ensures Distinct(Labels(Merge(s1, s2, f).pairs))
    ensures IsSubsequence(Labels(Merge(s1, s2, f).pairs), Labels(s1.pairs))
  {
    MergeFromDistinct(s1.pairs, s2.pairs, f, {});
    MergeFromOrder(s1.pairs, s2.pairs, f, {});
  }

  /** No label is synthesized: every merged label is a label of both inputs, so the result is no longer than either. */
  lemma MergeBounded<L, A, B, C>(s1: Series<L, A>, s2: Series<L, B>, f: (A, B) -> C)
    ensures Elems(Labels(Merge(s1, s2, f).pairs)) <= Elems(Labels(s1.pairs)) * Elems(Labels(s2.pairs))
    ensures |Merge(s1, s2, f).pairs| <= |s1.pairs| && |Merge(s1, s2, f).pairs| <= |s2.pairs|
  {
    var r := Labels(Merge(s1, s2, f).pairs);
    forall l | l in r ensures l in Labels(s1.pairs) && l in Labels(s2.pairs) {
      MergeKeepsCommonDefined(s1, s2, f, l);
    }
    MergeOrder(s1, s2, f);
    SubsequenceLength(r, Labels(s1.pairs));
    DistinctWithin(r, Labels(s2.pairs));
  }

  /** Merging with an empty series, on either side, gives an empty series, and so does merging two empty ones. */
  lemma MergeWithEmpty<L, A, B, C>(s1: Series<L, A>, s2: Series<L, B>, f: (A, B) -> C)
    ensures Merge(Empty<L, A>(), s2, f) == Empty()
    ensures Merge(s1, Empty<L, B>(), f) == Empty()
  {
    var r := Merge(s1, Empty<L, B>(), f).pairs;
    if r != [] {
      MergeKeepsCommonDefined(s1, Empty<L, B>(), f, r[0].0);
      assert false;
    }
  }

  /** Both argument orders keep the same set of labels; only the combining order differs. */
  lemma MergeSameLabels<L, A, B, C, D>(s1: Series<L, A>, s2: Series<L, B>, f: (A, B) -> C, g: (B, A) -> D)
    ensures Elems(Labels(Merge(s1, s2, f).pairs)) == Elems(Labels(Merge(s2, s1, g).pairs))
  {
    var a, b := Labels(Merge(s1, s2, f).pairs), Labels(Merge(s2, s1, g).pairs);
    forall l ensures l in Elems(a) <==> l in Elems(b) {
      MergeKeepsCommonDefined(s1, s2, f, l);
      MergeKeepsCommonDefined(s2, s1, g, l);
    }
  }

  lemma {:induction false} MergeFromAllDefined<L, A, B, C>(p1: seq<(L, Option<A>)>, p2: seq<(L, Option<B>)>, f: (A, B) -> C, seen: set<L>)
    requires Distinct(Labels(p1))
    requires forall i | 0 <= i < |p1| :: p1[i].0 !in seen && p1[i].1.Some? && ValueAt(p2, p1[i].0).Some?
    ensures var r := MergeFrom(p1, p2, f, seen);
      |r| == |p1| &&
      forall i | 0 <= i < |p1| :: r[i] == (p1[i].0, Some(f(p1[i].1.value, ValueAt(p2, p1[i].0).value)))
  {
    if p1 != [] {
      var l0 := p1[0].0;
      DistinctTail(Labels(p1));
      assert Labels(p1)[1..] == Labels(p1[1..]);
      forall i | 0 <= i < |p1| - 1 ensures p1[1..][i].0 !in seen + {l0} {
        assert Labels(p1)[0] != Labels(p1)[i + 1];
      }
      MergeFromAllDefined(p1[1..], p2, f, seen + {l0});
    }
  }

  /**
   * Two series on the same default index with every value defined merge
   * position by position: label `i` carries `f(xs[i], ys[i])`.
   */
  lemma MergeAligned<A, B, C>(xs: seq<A>, ys: seq<B>, f: (A, B) -> C)
    requires |xs| == |ys|
    ensures var m := Merge(FromValues(seq(|xs|, i requires 0 <= i < |xs| => Some(xs[i]))),
                           FromValues(seq(|ys|, i requires 0 <= i < |ys| => Some(ys[i]))), f);
      |m.pairs| == |xs| && forall i | 0 <= i < |xs| :: m.pairs[i] == (i, Some(f(xs[i], ys[i])))
  {
    var s1 := FromValues(seq(|xs|, i requires 0 <= i < |xs| => Some(xs[i])));
    var s2 := FromValues(seq(|ys|, i requires 0 <= i < |ys| => Some(ys[i])));
    forall i | 0 <= i < |ys| ensures ValueAt(s2.pairs, i) == Some(ys[i]) {
      ValueAtDistinct(s2.pairs, i);
    }
    MergeFromAllDefined(s1.pairs, s2.pairs, f, {});
  }
}

=== FILE: series_examples.dfy ===
/**
 * The merge scenarios of the series test suite, stated as lemmas about the
 * model with `(a, b) => a + b` as the combining function.
 */
module SeriesExamples {
  import opened Wrappers
  import opened SeriesMerge

  function Add(a: int, b: int): int {
    a + b
  }

  /** [0, 1, 2] merged with [10, 11, 12] on the default index. */
  lemma MergeDefaultIndexExample()
    ensures Merge(FromValues([Some(0), Some(1), Some(2)]), FromValues([Some(10), Some(11), Some(12)]), Add).pairs
      == [(0, Some(10)), (1, Some(12)), (2, Some(14))]
  {
    var xs, ys := [0, 1, 2], [10, 11, 12];
    assert seq(|xs|, i requires 0 <= i < |xs| => Some(xs[i])) == [Some(0), Some(1), Some(2)];
    assert seq(|ys|, i requires 0 <= i < |ys| => Some(ys[i])) == [Some(10), Some(11), Some(12)];
    MergeAligned(xs, ys, Add);
  }

  /** Undefined values in the first series drop their labels. */
  lemma MergeUndefinedFirstExample()
    ensures Merge(FromValues([None, Some(1), None]), FromValues([Some(10), Some(11), Some(12)]), Add).pairs
      == [(1, Some(12))]
  {
    var p1 := FromValues([None, Some(1), None]).pairs;
    var p2 := FromValues([Some(10), Some(11), Some(12)]).pairs;
    assert p1 == [(0, None), (1, Some(1)), (2, None)];
    assert p2 == [(0, Some(10)), (1, Some(11)), (2, Some(12))];
    assert p2[1..] == [(1, Some(11)), (2, Some(12))];
    assert ValueAt(p2, 1) == Some(11);
    assert p1[1..][1..] == p1[2..];
    assert {0} + {1} == {0, 1} && {} + {0} == {0};
    assert MergeFrom(p1[2..], p2, Add, {0, 1}) == [];
    assert MergeFrom(p1[1..], p2, Add, {0}) == [(1, Some(12))];
    assert MergeFrom(p1, p2, Add, {}) == [(1, Some(12))];
  }

  /** Undefined values in the second series drop their labels. */
  lemma MergeUndefinedSecondExample()
    ensures Merge(FromValues([Some(0), Some(1), Some(2)]), FromValues([Some(10), None, None]), Add).pairs
      == [(0, Some(10))]
  {
    var p1 := FromValues([Some(0), Some(1), Some(2)]).pairs;
    var p2 := FromValues([Some(10), None, None]).pairs;
    assert p1 == [(0, Some(0)), (1, Some(1)), (2, Some(2))];
    assert p2 == [(0, Some(10)), (1, None), (2, None)];
    assert p2[1..] == [(1, None), (2, None)];
    assert p2[1..][1..] == [(2, None)];
    assert ValueAt(p2, 0) == Some(10);
    assert ValueAt(p2, 1) == None;
    assert ValueAt(p2, 2) == None;
    assert p1[1..][1..] == p1[2..];
    assert {0} + {1} == {0, 1} && {} + {0} == {0};
    assert MergeFrom(p1[2..], p2, Add, {0, 1}) == [];
    assert MergeFrom(p1[1..], p2, Add, {0}) == [];
    assert MergeFrom(p1, p2, Add, {}) == [(0, Some(10))];
  }

  /** Indexes [4, 5, 6] and [5, 6, 7] share the labels 5 and 6, in that order. */
  lemma MergeMismatchedIndexExample()
    ensures FromIndexed([4, 5, 6], [Some(1), Some(2), Some(3)]).Ok?
    ensures FromIndexed([5, 6, 7], [Some(10), Some(11), Some(12)]).Ok?
    ensures Merge(FromIndexed([4, 5, 6], [Some(1), Some(2), Some(3)]).value,
                  FromIndexed([5, 6, 7], [Some(10), Some(11), Some(12)]).value, Add).pairs
      == [(5, Some(12)), (6, Some(14))]
  {
    var p1 := [(4, Some(1)), (5, Some(2)), (6, Some(3))];
    var p2 := [(5, Some(10)), (6, Some(11)), (7, Some(12))];
    assert FromIndexed([4, 5, 6], [Some(1), Some(2), Some(3)]).value.pairs == p1;
    assert FromIndexed([5, 6, 7], [Some(10), Some(11), Some(12)]).value.pairs == p2;
    assert p2[1..] == [(6, Some(11)), (7, Some(12))];
    assert p2[1..][1..] == [(7, Some(12))];
    assert ValueAt(p2, 4) == None;
    assert ValueAt(p2, 5) == Some(10);
    assert ValueAt(p2, 6) == Some(11);
    assert p1[1..][1..] == p1[2..];
    assert {4} + {5} == {4, 5} && {} + {4} == {4};
    assert MergeFrom(p1[2..], p2, Add, {4, 5}) == [(6, Some(14))];
    assert MergeFrom(p1[1..], p2, Add, {4}) == [(5, Some(12)), (6, Some(14))];
    assert MergeFrom(p1, p2, Add, {}) == [(5, Some(12)), (6, Some(14))];
  }

  /** Merging with an empty series, on either side, or two empty ones, gives no pairs. */
  lemma MergeEmptyExamples()
    ensures Merge(Empty<int, int>(), Empty<int, int>(), Add).pairs == []
    ensures Merge(FromValues([Some(0), Some(1), Some(2)]), Empty<int, int>(), Add).pairs == []
    ensures Merge(Empty<int, int>(), FromValues([Some(10), Some(11), Some(12)]), Add).pairs == []
  {
    MergeWithEmpty(FromValues([Some(0), Some(1), Some(2)]), Empty<int, int>(), Add);
  }
}

=== FILE: values.dfy ===
/**
 * Cell values, their kinds, and the per-column type tag inferred from them.
 */
module Values {
  import opened Iso8601

  /** A cell of a frame or a label of an index.  `Missing` is JavaScript's `undefined`. */
  datatype Value = Missing | Num(n: int) | Str(s: string) | Bool(b: bool) | Date(t: Instant)

  /** The errors construction and deserialization report. */
  datatype Error = ShapeMismatch | DuplicateColumnName | InvalidSerializedInput

  /** The kind of a value, as recorded in a serialized type tag. */
  datatype Kind = NumberKind | StringKind | BooleanKind | DateKind | EmptyKind {
    /** The tag string of the transport form. */
    function Name(): string {
      match this
      case NumberKind => "number"
      case StringKind => "string"
      case BooleanKind => "boolean"
      case DateKind => "date"
      case EmptyKind => "empty"
    }
  }

  /** Distinct kinds have distinct tags, so a tag string names one kind. */
  lemma NameInjective(k1: Kind, k2: Kind)
    requires k1.Name() == k2.Name()
    ensures k1 == k2
  {
    assert k1.Name()[0] == k2.Name()[0];
    if k1.Name()[0] == 'd' {
      assert k1.Name()[1] == k2.Name()[1];
    }
  }

  /** The tag "date" names DateKind and no other kind. */
  lemma DateName(k: Kind)
    ensures k.Name() == "date" <==> k == DateKind
  {
    if k.Name() == "date" {
      NameInjective(k, DateKind);
    }
  }

  /** The tag "empty" names EmptyKind and no other kind. */
  lemma EmptyName(k: Kind)
    ensures k.Name() == "empty" <==> k == EmptyKind
  {
    if k.Name() == "empty" {
      NameInjective(k, EmptyKind);
    }
  }

  function KindOf(v: Value): (k: Kind)
    ensures k == EmptyKind <==> v.Missing?
    ensures k == DateKind <==> v.Date?
  {
    match v
    case Missing => EmptyKind
    case Num(_) => NumberKind
    case Str(_) => StringKind
    case Bool(_) => BooleanKind
    case Date(_) => DateKind
  }

  /** Position `i` holds the first defined value of `cells`. */
  predicate FirstDefined(cells: seq<Value>, i: nat) {
    i < |cells| && !cells[i].Missing? && forall h | 0 <= h < i :: cells[h].Missing?
  }

  /**
   * The type tag of a column (or an index): the kind of its first non-missing
   * value, and EmptyKind when it has none.  Later values are not inspected.
   */
  function InferKind(cells: seq<Value>): (k: Kind)
    ensures k == EmptyKind <==> forall i | 0 <= i < |cells| :: cells[i].Missing?
    ensures k != EmptyKind ==> exists i: nat :: FirstDefined(cells, i) && KindOf(cells[i]) == k
  {
    if cells == [] then EmptyKind
    else if cells[0].Missing? then
      var k := InferKind(cells[1..]);
      assert forall i: nat | FirstDefined(cells[1..], i) :: FirstDefined(cells, i + 1) && cells[i + 1] == cells[1..][i];
      k
    else
      assert FirstDefined(cells, 0);
      KindOf(cells[0])
  }

  /** The kind of the first non-missing value is the inferred one, whatever follows it. */
  lemma InferKindOfFirst(cells: seq<Value>, i: nat)
    requires FirstDefined(cells, i)
    ensures InferKind(cells) == KindOf(cells[i])
  {
    var k := InferKind(cells);
    var i': nat :| FirstDefined(cells, i') && KindOf(cells[i']) == k;
    assert i' == i;
  }

  /** The tag string of a sequence is "empty" exactly when nothing is defined, and otherwise that of its first defined value. */
  lemma InferKindName(cells: seq<Value>)
    ensures InferKind(cells).Name() == "empty" <==> forall i | 0 <= i < |cells| :: cells[i].Missing?
    ensures forall i: nat | FirstDefined(cells, i) :: InferKind(cells).Name() == KindOf(cells[i]).Name()
  {
    var k := InferKind(cells);
    EmptyName(k);
    forall i: nat | FirstDefined(cells, i)
      ensures k.Name() == KindOf(cells[i]).Name()
    {
      InferKindOfFirst(cells, i);
    }
  }

  /** Every non-missing value has the kind the tag records. */
  predicate Homogeneous(cells: seq<Value>) {
    forall i | 0 <= i < |cells| :: !cells[i].Missing? ==> KindOf(cells[i]) == InferKind(cells)
  }

  /** A homogeneous column tagged "date" holds only dates and missing values, and only such a column is. */
  lemma HomogeneousDates(cells: seq<Value>)
    requires Homogeneous(cells)
    ensures InferKind(cells) == DateKind <==>
      (exists i | 0 <= i < |cells| :: cells[i].Date?) && forall i | 0 <= i < |cells| :: cells[i].Missing? || cells[i].Date?
  {
  }
}

=== FILE: wrappers.dfy ===
/** Option and Result, the failure-compatible datatypes the rest of the model uses. */
module Wrappers {

  datatype Option<+T> = None | Some(value: T) {
    predicate IsFailure() { None? }

    function PropagateFailure<U>(): Option<U>
      requires None?
    {
      None
    }

    function Extract(): T
      requires Some?
    {
      value
    }

    function GetOr(default: T): T {
      match this
      case Some(v) => v
      case None => default
    }
  }

  datatype Result<+R, +E> = Ok(value: R) | Err(error: E) {
    predicate IsFailure() { Err? }

    function PropagateFailure<U>(): Result<U, E>
      requires Err?
    {
      Err(error)
    }

    function Extract(): R
      requires Ok?
    {
      value
    }
  }
}
